=== FILE: README.md ===
# Genetic hyperparameter evolution of the YOLOv5 trainer, in Dafny

This project models the `--evolve` branch of `main` in `train.py`, together
with `generate_individual`. That branch is a genetic algorithm over
hyperparameters:

- It builds a gene space from the hyperparameter dictionary and a metadata
  table of (mutable, lower, upper) entries.
- It seeds a population from saved YAML records and pads it with random
  individuals.
- Each generation it:
  - writes a snapshot of the population;
  - trains once per individual and scores each run by mAP@0.5;
  - picks a mating pool by adaptive tournaments plus elites;
  - breeds `pop_size` children by single-point crossover and clamped
    mutation.
- At the end it reports the best individual.

Everything is pure functions over sequences, maps and reals:

- Every random draw is an input. Its range is stated as a precondition
  (`IsSample`, `FitsChildDraws`, `FitsRandomDraws`).
- The training run is an oracle `Trainer` from the call number and the
  hyperparameters to the seven result metrics.
- Python lists are mutable and a child that skips crossover *is* its first
  parent's list. To capture this, a population is a sequence of identities
  into a heap of gene vectors. A kept child reuses its parent's identity,
  and its in-place mutation is visible to later children and to every slot
  sharing it.

Modules, in dependency order:

- `Errors`: the exceptions the branch can raise, as a `Result`.
- `Numeric`: Python's `int()`, `min`/`max`, `random.uniform` and the clamp.
- `Settings`: the GA constants.
- `Schedules`: elite size, tournament size, crossover and mutation rates.
- `GeneSpace`: anchors handling, flag filtering, bounds look-up.
- `Populations`: the heap representation.
- `Seeding`: seed extraction, `generate_individual`, the initial population.
- `Evaluation`: the overlay onto `hyp` and the training runs.
- `Selection`: tournaments, elites, the mating pool.
- `Variation`: crossover, mutation, building the next generation.
- `Snapshot`: the per-generation population dictionary.
- `Evolution`: a generation, the run and the whole branch.

## Model

| member | source | states |
|---|---|---|
| Numeric.Trunc | train.py:979-981 | `int()` of a float rounds toward zero: for non-negative `x` the result is the floor, for negative `x` the ceiling |
| Numeric.TruncMonotonic | train.py:979-981 | `int()` is monotone |
| Numeric.Clamp | train.py:1051-1052 | `min(max(v, lo), hi)` lies in `[lo, hi]` when `lo <= hi`, leaves an in-range value alone, and gives the violated bound otherwise |
| Numeric.ClampNoFurther | train.py:1050-1052 | clamping toward a range that holds `x` never moves a value further from `x` |
| Numeric.Uniform | train.py:1096 | `random.uniform(a, b)` with a unit draw lies in `[a, b]` |
| Numeric.MaxInt | train.py:1007-1008 | Python's `max` of two integers is at least both and is one of them |
| Numeric.MinInt | train.py:1009 | Python's `min` of two integers is at most both and is one of them |
| Numeric.MaxReal | train.py:1033-1035 | Python's `max` of two floats is at least both and is one of them |
| Numeric.MinReal | train.py:1034-1035 | Python's `min` of two floats is at most both and is one of them |
| Schedules.Progress | train.py:981 | `generation / opt.evolve` lies in `[0, 1)` inside the generation loop |
| Schedules.Share | train.py:980-981 | a non-negative span times the progress lies in `[0, span]`, and strictly below a positive span |
| Schedules.ShareMonotonic | train.py:980-981 | that product does not decrease over generations |
| Schedules.EliteSize | train.py:979-981 | the elite size stays within `[min_elite_size, max_elite_size]` and never reaches the maximum when it exceeds the minimum |
| Schedules.EliteSizeNonDecreasing | train.py:979-981 | the elite size never decreases from one generation to a later one |
| Schedules.DefaultEliteSizes | train.py:891-892 | with the source's constants the elite size runs over 2..4 and starts at 2 |
| Schedules.EliteSizeExample | train.py:979-981 | with the source's constants, generation 5 of 10 has elite size 3 |
| Schedules.TournamentSize | train.py:1007-1011 | the tournament size is at least `max(2, tournament_size_min)` and at most `max(max(2, tmin), min(tmax, pop_size))` |
| Schedules.TournamentSizeNonIncreasing | train.py:1007-1011 | the tournament size never grows over generations |
| Schedules.TournamentFitsPopulation | train.py:1007-1014 | for a sane setting the tournament size is between 2 and `pop_size`, so `random.sample` can draw it |
| Schedules.AdaptiveRate | train.py:1033-1036 | `max(rmin, min(rmax, rmax - g/G))` lies in `[rmin, rmax]` when `rmin <= rmax`, and equals `rmax - g/G` while that is at least `rmin` |
| Schedules.AdaptiveRateNonIncreasing | train.py:1033-1036 | the adaptive rate never grows over generations |
| Schedules.CrossoverRate | train.py:1033-1036 | the crossover rate stays within its configured range |
| Schedules.MutationRate | train.py:1044-1047 | the mutation rate stays within its configured range |
| Schedules.RatesNonIncreasing | train.py:1033-1047 | both rates are non-increasing in the generation |
| GeneSpace.Find | train.py:925-926 | a metadata look-up finds the entry of that name exactly when the table has one |
| GeneSpace.PinnedNames | train.py:918 | `del_` lists exactly the table entries whose flag is false, in table order |
| GeneSpace.PinnedNamesExact | train.py:918-921 | a key is in `del_` iff its metadata flag is false |
| GeneSpace.FirstMissing | train.py:925-926 | the first key absent from a dictionary, scanning in order, or none when all are present |
| GeneSpace.FirstMissingWithout | train.py:919-926 | the first kept key without metadata is the first key, in `hyp` order, that is neither dropped nor has metadata |
| GeneSpace.Without | train.py:919-922 | deleting the pinned keys from the `hyp` copy keeps exactly the other keys, in their order, without duplicates |
| GeneSpace.Build | train.py:918-930 | the gene space is built iff every pinned key is in `hyp` and every other `hyp` key has metadata; then the genes are exactly the unpinned `hyp` keys, in `hyp` order, each with the bounds of its mutable metadata entry; otherwise `KeyError` naming the first pinned key `hyp` lacks, or, when there is none, the first `hyp` key without metadata |
| GeneSpace.GenesFor | train.py:925-930 | genes for keys that all have mutable metadata carry exactly those names, each with the bounds its entry gives |
| GeneSpace.GeneFor | train.py:925-930 | the gene for key `k` is named `k` and carries the lower and upper limit of `meta[k]` |
| GeneSpace.PrepareAnchors | train.py:896-901 | `anchors` defaults to 3 when absent and is then appended after the YAML keys, which keep their order; with `--noautoanchor` it is deleted from both `hyp` and the metadata, which fails iff the metadata lacks it, and the other keys keep their order; every other value and metadata entry is untouched |
| GeneSpace.PrepareAnchorsIdempotent | train.py:896-899 | preparing an already prepared dictionary again without `--noautoanchor` changes nothing |
| GeneSpace.PinnedAfterRemove | train.py:901-918 | deleting the `anchors` metadata entry pins or unpins no other key |
| GeneSpace.RemoveEntry | train.py:901 | deleting a metadata entry removes that name and leaves every other look-up as it was |
| Populations.FromVectors | train.py:960-963 | a population of fresh, distinct lists holding the given vectors in slot order |
| Populations.FromVectorsWellFormed | train.py:960-963 | vectors of one length give a well-formed population |
| Populations.FromVectorsInBounds | train.py:960-963 | vectors within the gene ranges give a population whose every list is within them |
| Seeding.ExtractSeed | train.py:942 | a seed record yields the value of every gene in gene order, or `KeyError` naming the first gene, in gene order, the record lacks, iff one is missing |
| Seeding.ExtractSeeds | train.py:941-953 | all records are read in order; the run fails iff one record lacks a gene |
| Seeding.ExtractSeedsFailsFirst | train.py:941-953 | the error that ends seed reading is that of the first record lacking a gene |
| Seeding.GenerateIndividual | train.py:1093-1097 | `generate_individual` returns one value per gene, each within its bounds when the draws are unit draws |
| Seeding.ReverseIndex | train.py:962-963 | reversing puts element `i` at position `n - 1 - i` |
| Seeding.RandomCount | train.py:960-961 | `range(pop_size - len(seeds))` is empty iff the seeds fill the population; seeds and random individuals together number `max(pop_size, len(seeds))` |
| Seeding.PrependEach | train.py:962-963 | prepending every seed adds exactly the seeds (as a multiset) to the list; their order is stated by `Seeding.PrependEachReverses` |
| Seeding.PrependEachReverses | train.py:962-963 | prepending the seeds one at a time leaves them reversed in front of the padding |
| Seeding.InitialVectors | train.py:959-963 | the initial vectors are the reversed seeds followed by one random individual per draw vector |
| Seeding.InitialVectorsCovered | train.py:959-963 | every initial slot holds either a seed or a random individual |
| Seeding.InitialVectorsInBounds | train.py:955-963 | in-range seeds and unit draws give initial vectors that are all within the gene ranges |
| Seeding.InitialPopulation | train.py:955-963 | a population exists iff `pop_size > 1`; it holds `max(pop_size, len(seeds))` distinct lists, the reversed seeds first, then the random individuals |
| Seeding.InitialPopulationWellFormed | train.py:955-963 | with seeds of the genes' length the initial population is well formed |
| Seeding.InitialPopulationInBounds | train.py:955-963 | in-bounds seeds and unit draws give an initial population within bounds; seeds are never clamped, so bounds are only kept if the seeds respect them |
| Evaluation.Overlay | train.py:985-987 | definition of the overlay of one individual onto `hyp`; it has no contract of its own, and its contents are stated by `Evaluation.OverlayContents` |
| Evaluation.OverlayContents | train.py:985-987 | after the overlay, `hyp` holds its own keys plus the gene keys, every gene key carries the individual's value, and every other key is unchanged |
| Evaluation.OverlayAbsorbs | train.py:985-987 | a later individual's overlay completely replaces an earlier one's |
| Evaluation.OverlayReadBack | train.py:985-988 | reading the genes back by name from an overlaid `hyp` gives the individual |
| Evaluation.EvaluateAll | train.py:983-1001 | one score per individual |
| Evaluation.EvaluateAllScores | train.py:984-1001 | score `i` is the mAP@0.5 of training run number `calls + i` on the base `hyp` overlaid with individual `i` |
| Evaluation.EvaluateAllFinalHyp | train.py:984-987 | after the loop `hyp` holds the last individual's genes over the base |
| Selection.MaxOf | train.py:1017-1018 | `max` returns an element at least as large as every element |
| Selection.IndexOf | train.py:1017 | `list.index` returns the first position holding the value |
| Selection.FirstArgMax | train.py:1057 | `scores.index(max(scores))` is the first position of a maximal score |
| Selection.TournamentWinner | train.py:1013-1019 | the winner is a sampled index whose score is at least every sampled score, and every earlier sampled index scores strictly less |
| Selection.FirstBestUnique | train.py:1017-1018 | the first-in-sample-order tie-break leaves exactly one possible winner |
| Selection.Survivors | train.py:1005-1019 | one winner per tournament: a member of its own sample with a maximal score, at the first sample position holding that score |
| Selection.Insert | train.py:1023 | inserting into a sorted list keeps it sorted and adds exactly that element |
| Selection.SortScores | train.py:1023 | `sorted` returns a sorted permutation of the scores |
| Selection.NegativeSlice | train.py:1023 | `s[-e:]` is the last `e` elements for `0 < e <= len(s)`, the whole list for `e == 0` or `e >= len(s)`, and the elements from position `-e` on for negative `e` |
| Selection.EliteScores | train.py:1023 | the elite slice is no longer than the score list; which scores it holds is stated by `Selection.EliteScoreThreshold` (at least the `elite_size`-th largest) and `Selection.EliteAllWhenSliceCoversAll` (all of them when `e` is 0 or at least the length) |
| Selection.EliteIndices | train.py:1022-1023 | the elites are exactly the ascending indices below `pop_size` whose score occurs in the elite slice |
| Selection.EliteIndicesBelow | train.py:1022-1023 | the comprehension over `range(n)` yields exactly the ascending indices below `n` whose score occurs in the elite slice |
| Selection.CountAtLeastPermutation | train.py:1023 | permuting scores does not change how many reach a threshold |
| Selection.EliteScoreThreshold | train.py:1023 | a score is in the elite slice iff it is at least the `elite_size`-th largest score |
| Selection.EliteIndicesByThreshold | train.py:1022-1023 | an index is an elite iff its score is at least the `elite_size`-th largest |
| Selection.EliteCountAtLeastEliteSize | train.py:1022-1023 | ties included, there are at least `elite_size` elites over a full score list |
| Selection.EliteAllWhenSliceCoversAll | train.py:1023 | with `elite_size` 0 or at least the list length, the slice is the whole list and every index is an elite |
| Selection.MatingPool | train.py:1004-1024 | the pool is the tournament winners followed by the elites, all below `pop_size` |
| Selection.MatingPoolWinners | train.py:1013-1019 | each tournament slot of the pool holds a member of its sample with the sample's best score, the first in sample order |
| Selection.MatingPoolElites | train.py:1021-1024 | every index whose score is among the elite scores is in the pool |
| Selection.MatingPoolCoversDraws | train.py:1021-1031 | when all `pop_size` scores exist, the pool has at least `pop_size` entries, so every parent draw lands in it |
| Selection.ParentSlots | train.py:1021-1031 | the first `pop_size` pool entries, the only ones parents are drawn from, are the winners plus the first `elite_size` elites |
| Variation.Crossover | train.py:1037-1040 | the child has the parents' length, takes `p1` before the cut and `p2` from the cut on |
| Variation.CrossoverInBounds | train.py:1037-1040 | crossing two in-bounds parents gives an in-bounds child |
| Variation.CrossoverExample | train.py:1039-1040 | `[0.1, 0.6]` and `[0.2, 0.9]` cut at 1 give `[0.1, 0.9]` |
| Variation.MutateGene | train.py:1049-1052 | an unchosen gene is unchanged; a chosen gene ends within its bounds and, when it starts within them and the offset draw is a unit draw, at most 0.1 from where it started |
| Variation.Mutate | train.py:1048-1052 | mutation of a child gene by gene, with the same three guarantees per gene, the 0.1 step bound again only for a gene that starts within its bounds under a unit offset draw |
| Variation.MutateInBounds | train.py:1048-1052 | mutation keeps an in-bounds child in bounds |
| Variation.MutateGeneClampsExample | train.py:1049-1052 | a chosen gene at 0.08 in `[0, 0.1]` whose offset draw gives `uniform(-0.1, 0.1) == 0.05` lands on the bound 0.1 |
| Variation.MutateGeneOutOfBoundsExample | train.py:1049-1052 | a chosen seed gene at 0.95 outside `[0, 0.5]` is clamped to 0.5, a move of 0.45: the 0.1 step bound needs an in-bounds start |
| Variation.ChildSucceeds | train.py:1028-1038 | definition of when a child's draws raise nothing: both `randint` draws index the pool, and a crossover has `len(hyp_GA) >= 2`; it has no contract of its own, and `Variation.BuildChild` succeeds exactly when it holds |
| Variation.BuildChild | train.py:1028-1053 | a child is built iff both parent draws index the pool and a crossover has a cut range. A kept child is its parent's own list, mutated in place. A crossover child is a fresh list. Every other list is unchanged. |
| Variation.BuildChildren | train.py:1026-1053 | the children share one heap: the slots are untouched, no list disappears, every child names a live list, and fresh identities only grow |
| Variation.BuildChildrenKept | train.py:1037-1042 | child `k` is built from `draws[k]`: when it skips crossover it is the list in `population[selected_indices[parent1]]` itself, so every later change to one is a change to the other |
| Variation.BuildChildrenFresh | train.py:1037-1040 | a crossover child `k` is a list new to the generation: absent from the old heap and numbered from the next identity on |
| Variation.BuildChildrenSucceeds | train.py:1026-1053 | the generation is bred iff every child's draws get through |
| Variation.BuildChildrenInBounds | train.py:1026-1053 | breeding keeps every list of the heap within bounds |
| Variation.NextGeneration | train.py:1026-1055 | the next population has one slot per child, is well formed, stays within bounds, and is built iff every child succeeds; slot `k` is its parent's own list when `draws[k]` skips crossover and a new list otherwise |
| Variation.KeptChildrenShareList | train.py:1042-1053 | two kept children of one pool slot are the same list, which carries both mutations, the second on top of the first |
| Variation.CrossoverReadsMutatedParent | train.py:1037-1053 | a crossover child whose parent an earlier child kept reads the mutated values, not the evaluated ones |
| Snapshot.DecimalString | train.py:973 | `str(n)` is a non-empty string of digits with no leading zero |
| Snapshot.DecimalRoundTrip | train.py:973 | `int(str(n)) == n` |
| Snapshot.Label | train.py:973 | the key `gen{g}number{i}` of slot `i` reads back, through its digits after `gen{g}number`, as slot `i` |
| Snapshot.LabelInjective | train.py:973 | distinct slots get distinct `gen{g}number{i}` labels |
| Snapshot.Entry | train.py:971-972 | with distinct gene names, `little_dict` holds exactly the gene names, each mapped to the individual's value for that gene |
| Snapshot.Save | train.py:969-973 | definition of `save_dict` after the loop; it has no contract of its own, and its keys, size and values are stated by `Snapshot.SaveKeys`, `Snapshot.SaveSize` and `Snapshot.SaveValues` |
| Snapshot.SaveKeys | train.py:969-973 | the snapshot's keys are exactly the labels of the population's slots |
| Snapshot.SaveSize | train.py:969-973 | the snapshot has one entry per slot |
| Snapshot.SaveValues | train.py:970-973 | slot `i`'s entry is its gene-name to value dictionary |
| Snapshot.SaveRestore | train.py:969-973 | reading slot `i`'s saved entry back by gene name, as the resume path does, gives slot `i`'s individual |
| Evolution.TournamentCount | train.py:1005 | `range(pop_size - elite_size)` holds no tournament iff the elite fills the population; otherwise the tournaments and the elite size add up to `pop_size` |
| Evolution.SelectParents | train.py:1003-1024 | the pool is built iff no tournament must sample more than `pop_size` indices, and holds indices below `pop_size` |
| Evolution.SelectParentsPicks | train.py:1003-1024 | tournament slots hold each sample's best, the first in sample order; every elite-scoring index is in the pool |
| Evolution.Breed | train.py:1003-1055 | selection and breeding fail only by an oversized sample, a short pool or a missing cut range; on success they give `pop_size` well-formed, in-bounds lists |
| Evolution.Generation | train.py:968-1055 | a generation trains once per current slot and leaves exactly `pop_size` well-formed lists |
| Evolution.GenerationEvaluates | train.py:983-1001 | a generation evaluates the population it was given, and `hyp` ends holding the last individual's genes |
| Evolution.GenerationSaves | train.py:968-976 | every generation after the first writes the snapshot of its incoming population; the first writes none |
| Evolution.GenerationKeepsBounds | train.py:983-1055 | bounds are preserved by a generation, and everything it evaluates is in bounds |
| Evolution.SteadyGenerationSucceeds | train.py:1003-1055 | from exactly `pop_size` individuals with at least two genes, a sane setting never fails a generation |
| Evolution.Run | train.py:967-1055 | the remaining generations keep the population well formed with at least `pop_size` slots, and fail only with the generation's errors |
| Evolution.RunShape | train.py:967-1055 | after the run exactly `pop_size` individuals remain; the last evaluation covered the initial population when one generation ran, `pop_size` individuals otherwise |
| Evolution.RunKeepsBounds | train.py:967-1055 | bounds are an invariant of the whole run: every list and every evaluated vector stays in bounds |
| Evolution.RunSucceeds | train.py:967-1055 | from exactly `pop_size` individuals a sane setting with at least two genes completes every generation |
| Evolution.Report | train.py:1057-1058 | as written: the first best score's slot is looked up in the replaced population, which fails past its end |
| Evolution.BestEvaluated | train.py:1057-1059 | corrected: the first best-scoring vector of the last evaluation, as it was trained |
| Evolution.Prepare | train.py:896-953 | setup fails only with `KeyError`, with `KeyError('anchors')` when `--noautoanchor` meets a table without `anchors`; on success it yields distinct genes that all have a `hyp` value and one vector of the genes' length per seed record |
| Evolution.PrepareGenes | train.py:896-930 | the genes are the YAML keys, with `anchors` appended when it was missing, that are neither pinned nor (under `--noautoanchor`) `anchors`, in the YAML order |
| Evolution.PrepareFailsFirst | train.py:896-953 | a setup that does not fail on `anchors` fails with the gene space's `KeyError` if there is one, and otherwise with the seed records' |
| Evolution.PrepareReadsSeeds | train.py:941-953 | every seed record holds every gene, and each seed vector reads its record in gene order |
| Evolution.PrepareOrdered | train.py:918-930 | ordered bounds in the metadata give ordered gene bounds |
| Evolution.PreparedGenesOrdered | train.py:918-930 | genes built from the anchor-prepared table inherit ordered bounds from ordered metadata |
| Evolution.Start | train.py:955-966 | the first generation starts from the initial population built from the seeds and the random draws, of `max(pop_size, len(seeds))` slots, with `hyp` as setup left it, no training run, nothing evaluated and no snapshot |
| Evolution.StartReady | train.py:955-967 | a successful setup with the draws in range makes the first generation runnable |
| Evolution.Conclude | train.py:1057-1059 | the final report: the printed list is that slot of the replaced population; the outcome also names the best-scoring trained vector |
| Evolution.Evolve | train.py:896-1059 | the whole branch fails with setup's `KeyError`, with `fitness_scores` unbound when no generation runs, with `population` unbound when `pop_size <= 1`, or with a generation's or the report's error |
| Evolution.EvolveShape | train.py:967-1058 | a successful run ends with `pop_size` individuals; its last evaluation covered `max(pop_size, len(seeds))` individuals after one generation and `pop_size` otherwise |
| Evolution.EvolveConcludes | train.py:1057-1059 | a successful run's outcome is the final report of its last state |
| Evolution.EvolveSucceeds | train.py:896-1059 | with a sane setting, at least two genes, at most `pop_size` seeds and at least one generation, the run completes whenever setup succeeds |
| Evolution.EvolveInBounds | train.py:896-1059 | with ordered bounds, in-bounds seeds and unit draws, the final population and the reported individual are within bounds |
| Evolution.ReportShowsMutatedList | train.py:1055-1058 | as written, the report prints the list mutated after evaluation, not the one that earned the score |
| Evolution.ReportPastNewPopulation | train.py:1057-1058 | as written, the report fails when the best of more than `pop_size` seeds sits past the end of the new population |

Every other member is a definition or a proof helper and carries no row
of its own:

- predicates that name a condition used in the contracts above:
  `GeneSpace.Distinct`, `ValidHyp`, `ValidMeta`, `OrderedBounds`,
  `Subsequence`, `IsPinned`, `FirstAbsent`; `Numeric.IsUnit`;
  `Populations.InBounds`, `WellFormed`, `HeapInBounds`;
  `Seeding.FitsRandomDraws`; `Selection.IsSample`, `FirstBest` (the
  tie-break), `Sorted`; `Variation.WellShaped`, `FitsChildDraws`;
  `Settings.Sane`; `Evolution.FitsGenDraws`, `GenReady`,
  `FitsRunDraws`, `RunReady`, `EvolveReady`, `MetaBoundsOrdered`;
  `Snapshot.AllDigits`;
- projections and plumbing: `Errors.IsFailure`, `PropagateFailure`,
  `Extract` (the `:-` operator); `GeneSpace.MetaNames`, `GeneNames`,
  `SetOf`; `Populations.Members` (the vectors the slots denote);
  `Seeding.Reverse`; `Selection.SampledScores`, `CountAtLeast`;
  `Snapshot.DigitChar`, `DigitValue`, `ParseDecimal`, `LabelSlot` (the
  slot number a key names);
- proof helpers: `GeneSpace.SubsequenceCons`, `SubsequenceTail`,
  `WithoutAppendDropped`, `WithoutTwice`, `WithoutSameDrop`, `TailValid`,
  `ConsValid`; `Numeric.UniformBounds`, `MulNonNegative`;
  `Schedules.ScaledProgress`, `ProgressMonotonic`, `ScaledDifference`;
  `Seeding.InitialVectorsShape`; `Selection.InsertFront`, `InsertBehind`,
  `CountAtLeastAppend`, `CountAtLeastAll`, `CountAtLeastRemove`,
  `MultisetRemoveAt`, `PositionOf`, `PermutationTail`, `InSuffixAtLeast`,
  `AtLeastInSuffix`, `EliteIndicesBelowAll`, `EliteIndicesBelowCount`,
  `EliteThresholdEverywhere`, `SortedSuffixCount`;
  `Variation.BuildChildrenCons`, `BuildChildrenUncons` (one unfolding of
  `BuildChildren`, each way);
  `Snapshot.DecimalInjective`, `DigitsAreDigits`, `LabelsStep`,
  `NewLabel`; `Evolution.MembersShape`, `RunReadyStep`.

## Left out

- Training (`train()`, train.py:106-593) is an oracle: each run maps its call number and hyperparameters to seven metrics. The model says nothing about how the metrics arise.
- An exception raised inside a training run, which ends the whole evolution, is not modelled: the oracle always returns.
- The scalar one-liners inside `train()` (gradient accumulation, the LR lambda, warm-up count, freeze prefixes) are left out: they belong to the training run.
- The built-in metadata table (train.py:846-883) is a parameter, not a constant. Without it, the `--noautoanchor` deletion can fail when the table lacks `anchors`; the built-in table always has it.
- Hyperparameter values are reals. A YAML value of another type is not modelled.
- File and process I/O is left out:
  - YAML loading and dumping;
  - the directory listing of seed files;
  - the `assert os.path.isfile` of the resume path;
  - the `gsutil` download;
  - `print_mutation`, `plot_evolve` and the log lines.
- The snapshot is modelled as the in-memory dictionary. `yaml.dump`'s key sorting on disk is not.
- Command-line parsing, DDP and resume setup, and `run()` are out of scope.
- Probability distributions are not modelled. `random.sample`, `randint` and `uniform` are inputs constrained to the ranges Python guarantees; `uniform(a, b)` is Python's own formula `a + (b - a) * u` for a unit draw `u`.
- IEEE floating point is modelled with `real`: no rounding, no NaN, no overflow. Whether rounding lets `uniform` return its upper endpoint is not modelled; `Numeric.Uniform`'s contract allows both endpoints.
- The dead branch `initial_values is None` (train.py:956-958) is not modelled: `initial_values` is always a list.
- Evolution.Run: states no run-wide count of training runs. The per-generation count is stated by `Evolution.Generation` (`calls` grows by one per evaluated slot).
- Evolution.Evolve: states its result's best individual only through `Evolution.Conclude` (via `Evolution.EvolveConcludes`) and `Evolution.BestEvaluated`, not in its own contract.

## Findings

| source | as written | input that shows it | evidently intended | confidence | as-written member | corrected member |
|---|---|---|---|---|---|---|
| train.py:1057-1059 | `population[best_index]` is read after `population = next_generation` (train.py:1055), so the printed "best solution" is whatever the new generation holds in that slot | slot 0 scored 0.9 with genes `[0.5]`; a kept child of slot 0 mutated it to `[0.55]`, which is printed. With more seeds than `pop_size`, a best seed at slot 2 of a two-slot new population raises `IndexError` | print the individual that earned the best score in the last evaluation | high (not executed) | Evolution.Report (counterexamples Evolution.ReportShowsMutatedList, Evolution.ReportPastNewPopulation) | Evolution.BestEvaluated (carried as `best` by Evolution.Conclude and Evolution.Evolve) |

=== FILE: errors.dfy ===
/** Failure outcomes of the evolution driver.

    The driver has no error handling of its own: every failure is a Python
    exception that ends the run. Each constructor below names the exception
    and the place that raises it, so that a model function can return the
    failure instead of requiring it away.
 */
module Errors {

  datatype Error =
    /** `KeyError`: a dictionary lookup or `del` of an absent key. */
    | KeyError(key: string)
    /** `UnboundLocalError`: a local variable read before any assignment
        (`population` when `pop_size <= 1`, `fitness_scores` when no
        generation ran). */
    | UnboundLocal(name: string)
    /** `ValueError` from `random.sample` asked for more items than the
        range holds. */
    | SampleLargerThanPopulation(wanted: int, available: int)
    /** `ValueError` from `random.randint(1, n - 1)` when `n < 2`. */
    | EmptyRandintRange(genes: int)
    /** `IndexError` from subscripting the named list past its end. */
    | IndexOutOfRange(list: string, index: int, length: int)

  datatype Result<+T> = Ok(value: T) | Err(error: Error) {

    predicate IsFailure() {
      Err?
    }

    function PropagateFailure<U>(): Result<U>
      requires Err?
    {
      Err(error)
    }

    function Extract(): T
      requires Ok?
    {
      value
    }
  }

  datatype Option<+T> = None | Some(value: T)
}

=== FILE: evaluation.dfy ===
/** Fitness evaluation of one generation (train.py:983-1001).

    For each individual the gene values are written into `hyp_GA` by gene
    name, `hyp` is updated from `hyp_GA`, and a copy of `hyp` is handed to
    one full training run. The run itself is outside the model: it is an
    oracle that, given the number of runs made so far and the
    hyperparameters, returns the seven result metrics. The call number lets
    the oracle answer differently for equal configurations, as a
    non-deterministic training run may. Fitness is the third metric,
    mAP@0.5.
 */
module Evaluation {
  import opened GeneSpace
  import opened Seeding
  import opened Errors

  /** The result tuple of one training run, in the order the run returns it
      (train.py:990-998). */
  datatype TrainResults = TrainResults(
    precision: real,
    recall: real,
    map50: real,
    map50to95: real,
    boxLoss: real,
    objLoss: real,
    clsLoss: real)

  /** One training run: call number and hyperparameters to results. */
  type Trainer = (nat, map<string, real>) -> TrainResults

  /** The hyperparameters with the individual's gene values written over
      the gene keys, one key after another in gene order, as
      `hyp_GA[key] = value` over `zip(hyp_GA.keys(), individual)` followed
      by `hyp.update(hyp_GA)` does. */
  function Overlay(hyp: map<string, real>, genes: seq<Gene>, x: seq<real>): map<string, real>
    requires |x| == |genes|
  {
    if |genes| == 0 then hyp
    else
      var n := |genes| - 1;
      Overlay(hyp, genes[..n], x[..n])[genes[n].name := x[n]]
  }

  /** What the overlay holds: the base keys plus the gene keys, every gene
      key with the individual's value for it, every other key untouched. */
  lemma {:induction false} OverlayContents(hyp: map<string, real>, genes: seq<Gene>, x: seq<real>)
    requires |x| == |genes|
    requires Distinct(GeneNames(genes))
    ensures forall k :: k in Overlay(hyp, genes, x) <==> k in hyp || k in GeneNames(genes)
    ensures forall j :: 0 <= j < |genes| ==> Overlay(hyp, genes, x)[genes[j].name] == x[j]
    ensures forall k :: k in hyp && k !in GeneNames(genes) ==> Overlay(hyp, genes, x)[k] == hyp[k]
  {
    if |genes| > 0 {
      var n := |genes| - 1;
      assert GeneNames(genes[..n]) == GeneNames(genes)[..n];
      assert forall k :: k in GeneNames(genes) <==> k in GeneNames(genes[..n]) || k == genes[n].name;
      OverlayContents(hyp, genes[..n], x[..n]);
      forall j | 0 <= j < n
        ensures genes[j].name != genes[n].name
      {
        assert GeneNames(genes)[j] != GeneNames(genes)[n];
      }
    }
  }

  /** Only the latest overlay matters: `hyp` carries the previous
      individual's genes into the next iteration, and they are all
      overwritten again. */
  lemma OverlayAbsorbs(hyp: map<string, real>, genes: seq<Gene>, x: seq<real>, y: seq<real>)
    requires |x| == |genes| && |y| == |genes|
    requires Distinct(GeneNames(genes))
    ensures Overlay(Overlay(hyp, genes, x), genes, y) == Overlay(hyp, genes, y)
  {
    var a := Overlay(Overlay(hyp, genes, x), genes, y);
    var b := Overlay(hyp, genes, y);
    OverlayContents(hyp, genes, x);
    OverlayContents(Overlay(hyp, genes, x), genes, y);
    OverlayContents(hyp, genes, y);
    assert a.Keys == b.Keys;
    forall k | k in a
      ensures a[k] == b[k]
    {
      if k in GeneNames(genes) {
        var j :| 0 <= j < |genes| && GeneNames(genes)[j] == k;
      }
    }
  }

  /** Reading the genes back by name from an overlaid configuration
      recovers the individual; this is how a configuration saved as a YAML
      file in the seed directory becomes a seed again. */
  lemma OverlayReadBack(hyp: map<string, real>, genes: seq<Gene>, x: seq<real>)
    requires |x| == |genes|
    requires Distinct(GeneNames(genes))
    ensures ExtractSeed(Overlay(hyp, genes, x), genes) == Ok(x)
  {
    OverlayContents(hyp, genes, x);
    var r := ExtractSeed(Overlay(hyp, genes, x), genes);
    assert forall j :: 0 <= j < |genes| ==> genes[j].name in GeneNames(genes);
    assert r.Ok?;
    assert r.value == x;
  }

  /** One generation's evaluation loop: `hyp` as the loop leaves it, and
      the scores in population order, each `results[2]` (mAP@0.5) of its
      run. */
  function EvaluateAll(hyp: map<string, real>, genes: seq<Gene>, xs: seq<seq<real>>, train: Trainer, calls: nat)
    : (r: (map<string, real>, seq<real>))
    requires Distinct(GeneNames(genes))
    requires forall i :: 0 <= i < |xs| ==> |xs[i]| == |genes|
    ensures |r.1| == |xs|
    decreases |xs|
  {
    if |xs| == 0 then (hyp, [])
    else
      var config := Overlay(hyp, genes, xs[0]);
      var rest := EvaluateAll(config, genes, xs[1..], train, calls + 1);
      (rest.0, [train(calls, config).map50] + rest.1)
  }

  /** The `i`-th run of the loop is call number `calls + i` and sees the
      base hyperparameters overlaid with the `i`-th individual alone:
      nothing of earlier individuals leaks into it. */
  lemma {:induction false} EvaluateAllScores(hyp: map<string, real>, genes: seq<Gene>, xs: seq<seq<real>>, train: Trainer, calls: nat, i: int)
    requires Distinct(GeneNames(genes))
    requires forall k :: 0 <= k < |xs| ==> |xs[k]| == |genes|
    requires 0 <= i < |xs|
    ensures EvaluateAll(hyp, genes, xs, train, calls).1[i] == train(calls + i, Overlay(hyp, genes, xs[i])).map50
    decreases i
  {
    if i > 0 {
      var config := Overlay(hyp, genes, xs[0]);
      var rest := EvaluateAll(config, genes, xs[1..], train, calls + 1);
      assert EvaluateAll(hyp, genes, xs, train, calls).1 == [train(calls, config).map50] + rest.1;
      EvaluateAllScores(config, genes, xs[1..], train, calls + 1, i - 1);
      assert xs[1..][i - 1] == xs[i];
      OverlayAbsorbs(hyp, genes, xs[0], xs[i]);
    }
  }

  /** After the loop `hyp` holds the last individual's genes over the base
      values. */
  lemma {:induction false} EvaluateAllFinalHyp(hyp: map<string, real>, genes: seq<Gene>, xs: seq<seq<real>>, train: Trainer, calls: nat)
    requires Distinct(GeneNames(genes))
    requires forall k :: 0 <= k < |xs| ==> |xs[k]| == |genes|
    requires |xs| > 0
    ensures EvaluateAll(hyp, genes, xs, train, calls).0 == Overlay(hyp, genes, xs[|xs| - 1])
    decreases |xs|
  {
    if |xs| > 1 {
      var config := Overlay(hyp, genes, xs[0]);
      EvaluateAllFinalHyp(config, genes, xs[1..], train, calls + 1);
      assert xs[1..][|xs| - 2] == xs[|xs| - 1];
      OverlayAbsorbs(hyp, genes, xs[0], xs[|xs| - 1]);
    }
  }
}

=== FILE: evolution.dfy ===
/** The evolution driver (train.py:845-1066): set up the gene space and the
    initial population, run `opt.evolve` generations of snapshot,
    evaluation, tournament and elite selection, crossover and mutation, and
    report the best individual.

    All randomness is an input: the draws for the random individuals, and
    per generation the tournament samples and the draws of every child.
    Training is the oracle of `Evaluation`.
 */
module Evolution {
  import opened Errors
  import opened Numeric
  import opened Settings
  import opened Schedules
  import opened GeneSpace
  import opened Populations
  import opened Seeding
  import opened Evaluation
  import opened Selection
  import opened Variation
  import opened Snapshot

  /** The draws one generation consumes: one `random.sample` per tournament,
      then the draws of each child. */
  datatype GenDraws = GenDraws(samples: seq<seq<int>>, children: seq<ChildDraws>)

  /** `range(pop_size - elite_size)`: the number of tournaments, none when
      the elite fills the population. */
  function TournamentCount(popSize: int, eliteSize: int): (r: nat)
    ensures r == 0 <==> popSize <= eliteSize
    ensures r > 0 ==> eliteSize + r == popSize
  {
    if popSize > eliteSize then popSize - eliteSize else 0
  }

  /** The draws of generation `g` as Python's random module delivers them:
      each sample is `tournament_size` distinct indices below `pop_size`
      (there are none to deliver when a sample cannot be drawn), and there
      is one well-ranged draw record per child. */
  predicate FitsGenDraws(d: GenDraws, c: GaConfig, g: int, gens: int, n: nat)
    requires 0 <= g < gens
  {
    var t := TournamentSize(c, g, gens);
    var count := TournamentCount(c.popSize, EliteSize(c, g, gens));
    && (t <= c.popSize || count == 0 ==> |d.samples| == count && forall k :: 0 <= k < |d.samples| ==> IsSample(d.samples[k], t, c.popSize))
    && |d.children| == c.popSize
    && forall k :: 0 <= k < |d.children| ==> FitsChildDraws(d.children[k], c.popSize, n)
  }

  /** The driver's variables between generations: the population, `hyp`,
      the number of training runs made, the vectors that were last
      evaluated and their `fitness_scores`, and the content of the last
      snapshot file written, if any. */
  datatype State = State(
    pop: Population,
    hyp: map<string, real>,
    calls: nat,
    evaluated: seq<seq<real>>,
    scores: seq<real>,
    saved: Option<map<string, map<string, real>>>)

  /** The `Members` facts a generation needs, in the form `Save` and
      `EvaluateAll` ask for. */
  lemma MembersShape(p: Population, n: nat)
    requires WellFormed(p, n)
    ensures forall i :: 0 <= i < |Members(p)| ==> |Members(p)[i]| == n
  {
  }

  /** `selected_indices` of generation `g` (train.py:1003-1025):
      `pop_size - elite_size` tournament winners, then the elites. Fails
      when a tournament must sample more indices than `range(pop_size)`
      holds. */
  function SelectParents(c: GaConfig, g: int, gens: int, scores: seq<real>, samples: seq<seq<int>>): (r: Result<seq<int>>)
    requires 0 <= g < gens
    requires 2 <= c.popSize <= |scores|
    requires var t := TournamentSize(c, g, gens);
             var count := TournamentCount(c.popSize, EliteSize(c, g, gens));
             t <= c.popSize || count == 0 ==> |samples| == count && forall k :: 0 <= k < |samples| ==> IsSample(samples[k], t, c.popSize)
    ensures r.Err? <==> TournamentCount(c.popSize, EliteSize(c, g, gens)) > 0 && TournamentSize(c, g, gens) > c.popSize
    ensures r.Err? ==> r.error == SampleLargerThanPopulation(TournamentSize(c, g, gens), c.popSize)
    ensures r.Ok? ==> forall k :: 0 <= k < |r.value| ==> 0 <= r.value[k] < c.popSize
    ensures r.Ok? ==> |r.value| == |samples| + |EliteIndices(scores, c.popSize, EliteSize(c, g, gens))|
  {
    var e := EliteSize(c, g, gens);
    var t := TournamentSize(c, g, gens);
    if TournamentCount(c.popSize, e) > 0 && t > c.popSize then
      Err(SampleLargerThanPopulation(t, c.popSize))
    else
      Ok(MatingPool(scores, c.popSize, e, samples))
  }

  /** The tournament slots of the pool hold each tournament's best
      contender, and every individual whose score is among the
      `elite_size` best appears in the pool. */
  lemma SelectParentsPicks(c: GaConfig, g: int, gens: int, scores: seq<real>, samples: seq<seq<int>>)
    requires 0 <= g < gens
    requires 2 <= c.popSize <= |scores|
    requires var t := TournamentSize(c, g, gens);
             var count := TournamentCount(c.popSize, EliteSize(c, g, gens));
             t <= c.popSize || count == 0 ==> |samples| == count && forall k :: 0 <= k < |samples| ==> IsSample(samples[k], t, c.popSize)
    requires SelectParents(c, g, gens, scores, samples).Ok?
    ensures var pool := SelectParents(c, g, gens, scores, samples).value;
            forall k :: 0 <= k < |samples| ==> pool[k] in samples[k]
    ensures var pool := SelectParents(c, g, gens, scores, samples).value;
            forall k, q :: 0 <= k < |samples| && 0 <= q < |samples[k]| ==> scores[samples[k][q]] <= scores[pool[k]]
    ensures var pool := SelectParents(c, g, gens, scores, samples).value;
            forall k :: 0 <= k < |samples| ==> FirstBest(scores, samples[k], pool[k])
    ensures var pool := SelectParents(c, g, gens, scores, samples).value;
            forall i :: 0 <= i < c.popSize && scores[i] in EliteScores(scores, EliteSize(c, g, gens)) ==> i in pool
  {
    var e := EliteSize(c, g, gens);
    MatingPoolWinners(scores, c.popSize, e, samples);
    forall i | 0 <= i < c.popSize && scores[i] in EliteScores(scores, e)
      ensures i in SelectParents(c, g, gens, scores, samples).value
    {
      MatingPoolElites(scores, c.popSize, e, samples, i);
    }
  }

  /** What generation `g` needs from the driver's state: a population of
      at least `pop_size` well-formed lists, distinct gene names and the
      generation's draws. */
  predicate GenReady(c: GaConfig, gens: int, g: int, genes: seq<Gene>, s: State, d: GenDraws) {
    && 0 <= g < gens
    && 2 <= c.popSize
    && Distinct(GeneNames(genes))
    && WellFormed(s.pop, |genes|)
    && c.popSize <= |s.pop.ids|
    && FitsGenDraws(d, c, g, gens, |genes|)
  }

  /** Selection and variation of generation `g` (train.py:1003-1055): the
      mating pool drawn from `scores`, then `pop_size` children bred from
      it into the next population. */
  function Breed(c: GaConfig, gens: int, g: int, genes: seq<Gene>, pop: Population, scores: seq<real>, d: GenDraws)
    : (r: Result<Population>)
    requires 0 <= g < gens
    requires 2 <= c.popSize <= |pop.ids|
    requires c.popSize <= |scores|
    requires WellFormed(pop, |genes|)
    requires FitsGenDraws(d, c, g, gens, |genes|)
    ensures r.Err? ==> || (r.error.SampleLargerThanPopulation? && r.error.wanted == TournamentSize(c, g, gens) > c.popSize)
                       || (r.error.IndexOutOfRange? && r.error.list == "selected_indices")
                       || r.error.EmptyRandintRange?
    ensures r.Ok? ==> |r.value.ids| == c.popSize && WellFormed(r.value, |genes|)
    ensures r.Ok? && HeapInBounds(pop, genes) && OrderedBounds(genes) ==> HeapInBounds(r.value, genes)
  {
    var pool :- SelectParents(c, g, gens, scores, d.samples);
    NextGeneration(pop, pool, d.children, CrossoverRate(c, g, gens), MutationRate(c, g, gens), genes)
  }

  /** One generation (train.py:968-1055). The scores are computed for every
      slot of the current population, but tournaments and elites only look
      at the first `pop_size` of them. */
  function Generation(c: GaConfig, gens: int, g: int, genes: seq<Gene>, train: Trainer, s: State, d: GenDraws)
    : (r: Result<State>)
    requires GenReady(c, gens, g, genes, s, d)
    ensures r.Err? ==> || (r.error.SampleLargerThanPopulation? && r.error.wanted == TournamentSize(c, g, gens) > c.popSize)
                       || (r.error.IndexOutOfRange? && r.error.list == "selected_indices")
                       || r.error.EmptyRandintRange?
    ensures r.Ok? ==> |r.value.pop.ids| == c.popSize && WellFormed(r.value.pop, |genes|)
    ensures r.Ok? ==> r.value.calls == s.calls + |s.pop.ids|
    ensures r.Ok? ==> |r.value.evaluated| == |r.value.scores| == |s.pop.ids|
  {
    var xs := Members(s.pop);
    MembersShape(s.pop, |genes|);
    var saved := if g >= 1 then Some(Save(g, xs, genes)) else s.saved;
    var evaluation := EvaluateAll(s.hyp, genes, xs, train, s.calls);
    var next :- Breed(c, gens, g, genes, s.pop, evaluation.1, d);
    Ok(State(next, evaluation.0, s.calls + |xs|, xs, evaluation.1, saved))
  }

  /** What a generation evaluates: the population it was given, each
      slot's individual written over the incoming `hyp` for one training
      run, the runs numbered on from those already made, and `hyp` left
      holding the last individual's genes. */
  lemma GenerationEvaluates(c: GaConfig, gens: int, g: int, genes: seq<Gene>, train: Trainer, s: State, d: GenDraws)
    requires GenReady(c, gens, g, genes, s, d)
    requires Generation(c, gens, g, genes, train, s, d).Ok?
    ensures forall i :: 0 <= i < |Members(s.pop)| ==> |Members(s.pop)[i]| == |genes|
    ensures Generation(c, gens, g, genes, train, s, d).value.evaluated == Members(s.pop)
    ensures Generation(c, gens, g, genes, train, s, d).value.hyp == EvaluateAll(s.hyp, genes, Members(s.pop), train, s.calls).0
    ensures Generation(c, gens, g, genes, train, s, d).value.scores == EvaluateAll(s.hyp, genes, Members(s.pop), train, s.calls).1
  {
    var xs := Members(s.pop);
    MembersShape(s.pop, |genes|);
    var evaluation := EvaluateAll(s.hyp, genes, xs, train, s.calls);
    var next := Breed(c, gens, g, genes, s.pop, evaluation.1, d);
    assert next.Ok?;
    var r := Generation(c, gens, g, genes, train, s, d).value;
    assert r.evaluated == xs && r.hyp == evaluation.0 && r.scores == evaluation.1;
  }

  /** The snapshot file: written from the incoming population in every
      generation but the first, left as it was in the first. */
  lemma GenerationSaves(c: GaConfig, gens: int, g: int, genes: seq<Gene>, train: Trainer, s: State, d: GenDraws)
    requires GenReady(c, gens, g, genes, s, d)
    requires Generation(c, gens, g, genes, train, s, d).Ok?
    ensures forall i :: 0 <= i < |Members(s.pop)| ==> |Members(s.pop)[i]| == |genes|
    ensures g >= 1 ==> Generation(c, gens, g, genes, train, s, d).value.saved == Some(Save(g, Members(s.pop), genes))
    ensures g == 0 ==> Generation(c, gens, g, genes, train, s, d).value.saved == s.saved
  {
    MembersShape(s.pop, |genes|);
  }

  /** A generation keeps every list within its genes' bounds, and what it
      evaluated was within them. */
  lemma GenerationKeepsBounds(c: GaConfig, gens: int, g: int, genes: seq<Gene>, train: Trainer, s: State, d: GenDraws)
    requires GenReady(c, gens, g, genes, s, d)
    requires Generation(c, gens, g, genes, train, s, d).Ok?
    requires OrderedBounds(genes) && HeapInBounds(s.pop, genes)
    ensures HeapInBounds(Generation(c, gens, g, genes, train, s, d).value.pop, genes)
    ensures var r := Generation(c, gens, g, genes, train, s, d).value;
            forall i :: 0 <= i < |r.evaluated| ==> InBounds(r.evaluated[i], genes)
  {
    GenerationEvaluates(c, gens, g, genes, train, s, d);
  }

  /** Once the population holds exactly `pop_size` individuals, a sane
      setting with at least two genes never fails: tournaments fit in the
      population, the mating pool has at least `pop_size` entries for the
      parent draws to index, and every crossover has a cut to draw. */
  lemma SteadyGenerationSucceeds(c: GaConfig, gens: int, g: int, genes: seq<Gene>, train: Trainer, s: State, d: GenDraws)
    requires Sane(c)
    requires 0 <= g < gens
    requires Distinct(GeneNames(genes))
    requires |genes| >= 2
    requires WellFormed(s.pop, |genes|)
    requires |s.pop.ids| == c.popSize
    requires FitsGenDraws(d, c, g, gens, |genes|)
    ensures Generation(c, gens, g, genes, train, s, d).Ok?
  {
    var xs := Members(s.pop);
    MembersShape(s.pop, |genes|);
    var scores := EvaluateAll(s.hyp, genes, xs, train, s.calls).1;
    var e := EliteSize(c, g, gens);
    TournamentFitsPopulation(c, g, gens);
    var pool := SelectParents(c, g, gens, scores, d.samples);
    assert pool.Ok?;
    assert pool.value == MatingPool(scores, c.popSize, e, d.samples);
    MatingPoolCoversDraws(scores, e, d.samples);
    assert forall k :: 0 <= k < |d.children| ==> ChildSucceeds(d.children[k], |pool.value|, CrossoverRate(c, g, gens), |genes|);
  }

  /** The draws of generations `g` up to `gens - 1`, one record each, in
      order. */
  predicate FitsRunDraws(draws: seq<GenDraws>, c: GaConfig, g: int, gens: int, n: nat)
    requires 0 <= g <= gens
    decreases gens - g
  {
    && |draws| == gens - g
    && (g < gens ==> FitsGenDraws(draws[0], c, g, gens, n) && FitsRunDraws(draws[1..], c, g + 1, gens, n))
  }

  /** What the remaining generations need from the driver's state: a
      population of at least `pop_size` well-formed lists and the draws of
      every remaining generation. */
  predicate RunReady(c: GaConfig, gens: int, g: int, genes: seq<Gene>, s: State, draws: seq<GenDraws>) {
    && 0 <= g <= gens
    && 2 <= c.popSize
    && Distinct(GeneNames(genes))
    && WellFormed(s.pop, |genes|)
    && c.popSize <= |s.pop.ids|
    && FitsRunDraws(draws, c, g, gens, |genes|)
  }

  /** After a successful generation the rest of the run is ready. */
  lemma RunReadyStep(c: GaConfig, gens: int, g: int, genes: seq<Gene>, train: Trainer, s: State, draws: seq<GenDraws>)
    requires g < gens
    requires RunReady(c, gens, g, genes, s, draws)
    requires Generation(c, gens, g, genes, train, s, draws[0]).Ok?
    ensures RunReady(c, gens, g + 1, genes, Generation(c, gens, g, genes, train, s, draws[0]).value, draws[1..])
  {
  }

  /** `for generation in range(g, opt.evolve)`: the remaining generations,
      each consuming its own draws. */
  function Run(c: GaConfig, gens: int, g: int, genes: seq<Gene>, train: Trainer, s: State, draws: seq<GenDraws>)
    : (r: Result<State>)
    requires RunReady(c, gens, g, genes, s, draws)
    ensures r.Ok? ==> WellFormed(r.value.pop, |genes|) && c.popSize <= |r.value.pop.ids|
    ensures r.Err? ==> || r.error.SampleLargerThanPopulation?
                       || (r.error.IndexOutOfRange? && r.error.list == "selected_indices")
                       || r.error.EmptyRandintRange?
    decreases gens - g
  {
    if g == gens then Ok(s)
    else
      var next :- Generation(c, gens, g, genes, train, s, draws[0]);
      RunReadyStep(c, gens, g, genes, train, s, draws);
      Run(c, gens, g + 1, genes, train, next, draws[1..])
  }

  /** After the last generation the population holds exactly `pop_size`
      individuals, the last evaluation covered the population it was
      given, and one training run was made per evaluated individual:
      `max(pop_size, len(seeds))` in generation `g`, `pop_size` in every
      later one. */
  lemma {:induction false} RunShape(c: GaConfig, gens: int, g: int, genes: seq<Gene>, train: Trainer, s: State, draws: seq<GenDraws>)
    requires g < gens
    requires RunReady(c, gens, g, genes, s, draws)
    requires Run(c, gens, g, genes, train, s, draws).Ok?
    ensures var r := Run(c, gens, g, genes, train, s, draws).value;
      && |r.pop.ids| == c.popSize
      && |r.evaluated| == |r.scores| == (if g == gens - 1 then |s.pop.ids| else c.popSize)
    decreases gens - g
  {
    var next := Generation(c, gens, g, genes, train, s, draws[0]).value;
    RunReadyStep(c, gens, g, genes, train, s, draws);
    if g + 1 < gens {
      RunShape(c, gens, g + 1, genes, train, next, draws[1..]);
    }
  }

  /** Bounds are an invariant of the whole run: when every list starts
      within its genes' bounds, every list ever built, and every vector
      ever evaluated, is within them too. */
  lemma {:induction false} RunKeepsBounds(c: GaConfig, gens: int, g: int, genes: seq<Gene>, train: Trainer, s: State, draws: seq<GenDraws>)
    requires RunReady(c, gens, g, genes, s, draws)
    requires Run(c, gens, g, genes, train, s, draws).Ok?
    requires OrderedBounds(genes) && HeapInBounds(s.pop, genes)
    requires forall i :: 0 <= i < |s.evaluated| ==> InBounds(s.evaluated[i], genes)
    ensures HeapInBounds(Run(c, gens, g, genes, train, s, draws).value.pop, genes)
    ensures var r := Run(c, gens, g, genes, train, s, draws).value;
            forall i :: 0 <= i < |r.evaluated| ==> InBounds(r.evaluated[i], genes)
    decreases gens - g
  {
    if g < gens {
      var next := Generation(c, gens, g, genes, train, s, draws[0]).value;
      GenerationKeepsBounds(c, gens, g, genes, train, s, draws[0]);
      RunReadyStep(c, gens, g, genes, train, s, draws);
      RunKeepsBounds(c, gens, g + 1, genes, train, next, draws[1..]);
    }
  }

  /** From a population of exactly `pop_size` individuals, a sane setting
      with at least two genes runs every remaining generation to the end. */
  lemma {:induction false} RunSucceeds(c: GaConfig, gens: int, g: int, genes: seq<Gene>, train: Trainer, s: State, draws: seq<GenDraws>)
    requires Sane(c)
    requires |genes| >= 2
    requires |s.pop.ids| == c.popSize
    requires RunReady(c, gens, g, genes, s, draws)
    ensures Run(c, gens, g, genes, train, s, draws).Ok?
    decreases gens - g
  {
    if g < gens {
      SteadyGenerationSucceeds(c, gens, g, genes, train, s, draws[0]);
      var next := Generation(c, gens, g, genes, train, s, draws[0]).value;
      RunReadyStep(c, gens, g, genes, train, s, draws);
      RunSucceeds(c, gens, g + 1, genes, train, next, draws[1..]);
    }
  }

  /** The final report as written (train.py:1057-1059): the position of the
      first maximal score of the last evaluated generation, looked up in
      `population`, which by then already holds the next generation. */
  function Report(pop: Population, scores: seq<real>): (r: Result<(nat, seq<real>)>)
    requires forall i :: 0 <= i < |pop.ids| ==> pop.ids[i] in pop.heap
    requires |scores| > 0
    ensures |scores| <= |pop.ids| ==> r.Ok?
    ensures r.Err? ==> r.error.IndexOutOfRange? && r.error.list == "population" && r.error.index >= |pop.ids|
    ensures r.Ok? ==> var (k, x) := r.value;
      && k < |scores| && k < |pop.ids|
      && x == pop.heap[pop.ids[k]]
      && (forall j :: 0 <= j < |scores| ==> scores[j] <= scores[k])
      && (forall j :: 0 <= j < k ==> scores[j] < scores[k])
  {
    var k := FirstArgMax(scores);
    if k >= |pop.ids| then Err(IndexOutOfRange("population", k, |pop.ids|))
    else Ok((k, Members(pop)[k]))
  }

  /** The individual the report is evidently meant to show: the first
      best-scoring vector of the last evaluated generation, as it was when
      it was trained. */
  function BestEvaluated(evaluated: seq<seq<real>>, scores: seq<real>): (r: (nat, seq<real>))
    requires |evaluated| == |scores| > 0
    ensures r.0 < |scores| && r.1 == evaluated[r.0]
    ensures forall j :: 0 <= j < |scores| ==> scores[j] <= scores[r.0]
    ensures forall j :: 0 <= j < r.0 ==> scores[j] < scores[r.0]
  {
    var k := FirstArgMax(scores);
    (k, evaluated[k])
  }

  /** What the driver has in hand after reading its inputs: the
      hyperparameters, the gene space and the seed individuals. */
  datatype Setup = Setup(hyp: map<string, real>, genes: seq<Gene>, seeds: seq<seq<real>>)

  /** The bounds of every metadata entry are ordered. */
  predicate MetaBoundsOrdered(meta: seq<MetaEntry>) {
    forall i :: 0 <= i < |meta| ==> meta[i].lower <= meta[i].upper
  }

  /** Genes built from a meta table whose every bound pair is ordered have
      ordered bounds: the anchors entry, when it is kept, is the table's own. */
  lemma PreparedGenesOrdered(h: HypTable, meta: seq<MetaEntry>, noAutoAnchor: bool,
                             prepared: (HypTable, seq<MetaEntry>), genes: seq<Gene>)
    requires ValidHyp(h) && ValidMeta(meta)
    requires PrepareAnchors(h, meta, noAutoAnchor) == Ok(prepared)
    requires Build(prepared.0.order, prepared.1) == Ok(genes)
    requires MetaBoundsOrdered(meta)
    ensures OrderedBounds(genes)
  {
    forall j | 0 <= j < |genes|
      ensures genes[j].lower <= genes[j].upper
    {
      var k := genes[j].name;
      var entry := MetaEntry(k, true, genes[j].lower, genes[j].upper);
      assert Find(prepared.1, k) == Some(entry);
      if k == "anchors" && noAutoAnchor {
        assert false;
      } else if k == "anchors" {
        assert Find(meta, k) == Some(entry);
      } else {
        assert Find(meta, k) == Some(entry);
      }
      assert entry in meta;
    }
  }

  /** Setup (train.py:896-952): anchors, gene space, seeds; the first
      `KeyError` ends the run. PrepareGenes states which keys become genes
      and in which order, PrepareFailsFirst which `KeyError` is raised. */
  function Prepare(h: HypTable, meta: seq<MetaEntry>, noAutoAnchor: bool, records: seq<map<string, real>>): (r: Result<Setup>)
    requires ValidHyp(h) && ValidMeta(meta)
    ensures r.Err? ==> r.error.KeyError?
    ensures noAutoAnchor && "anchors" !in MetaNames(meta) ==> r == Err(KeyError("anchors"))
    ensures r.Ok? ==> Distinct(GeneNames(r.value.genes))
    ensures r.Ok? ==> forall j :: 0 <= j < |r.value.genes| ==> r.value.genes[j].name in r.value.hyp
    ensures r.Ok? ==> |r.value.seeds| == |records|
    ensures r.Ok? ==> forall i :: 0 <= i < |records| ==> |r.value.seeds[i]| == |r.value.genes|
  {
    var prepared :- PrepareAnchors(h, meta, noAutoAnchor);
    var genes :- Build(prepared.0.order, prepared.1);
    var seeds :- ExtractSeeds(records, genes);
    assert forall j :: 0 <= j < |genes| ==> genes[j].name in prepared.0.values by {
      forall j | 0 <= j < |genes|
        ensures genes[j].name in prepared.0.values
      {
        assert genes[j].name in GeneNames(genes);
      }
    }
    Ok(Setup(prepared.0.values, genes, seeds))
  }

  /** The genes are the keys of the YAML dictionary, with `anchors`
      appended when it was missing, that are neither pinned nor (under
      `--noautoanchor`) `anchors`, in the dictionary's order: the order the
      individuals' vectors are aligned to. */
  lemma PrepareGenes(h: HypTable, meta: seq<MetaEntry>, noAutoAnchor: bool, records: seq<map<string, real>>)
    requires ValidHyp(h) && ValidMeta(meta)
    ensures var r := Prepare(h, meta, noAutoAnchor, records);
            r.Ok? && !noAutoAnchor ==>
              GeneNames(r.value.genes) == Without(if "anchors" in h.values then h.order else h.order + ["anchors"], SetOf(PinnedNames(meta)))
    ensures var r := Prepare(h, meta, noAutoAnchor, records);
            r.Ok? && noAutoAnchor ==>
              GeneNames(r.value.genes) == Without(h.order, SetOf(PinnedNames(meta)) + {"anchors"})
  {
    var r := Prepare(h, meta, noAutoAnchor, records);
    if r.Ok? {
      var prepared := PrepareAnchors(h, meta, noAutoAnchor).value;
      var genes := Build(prepared.0.order, prepared.1).value;
      assert r.value.genes == genes;
      if noAutoAnchor {
        var pinned := SetOf(PinnedNames(prepared.1));
        PinnedAfterRemove(meta, "anchors");
        WithoutTwice(h.order, {"anchors"}, pinned);
        WithoutSameDrop(h.order, {"anchors"} + pinned, SetOf(PinnedNames(meta)) + {"anchors"});
      }
    }
  }

  /** Which `KeyError` ends setup: the anchors deletion's when the meta table
      lacks `anchors` under `--noautoanchor`, else the gene space's (its
      first pinned key missing from the dictionary, or its first key without
      metadata), else the first seed record's first missing gene. */
  lemma PrepareFailsFirst(h: HypTable, meta: seq<MetaEntry>, noAutoAnchor: bool, records: seq<map<string, real>>)
    requires ValidHyp(h) && ValidMeta(meta)
    ensures var r := Prepare(h, meta, noAutoAnchor, records);
            r.Err? && !(noAutoAnchor && "anchors" !in MetaNames(meta)) ==>
              var p := PrepareAnchors(h, meta, noAutoAnchor).value;
              var b := Build(p.0.order, p.1);
              r.error == (if b.Err? then b.error else ExtractSeeds(records, b.value).error)
  {
  }

  /** Every seed record holds every gene, and the seed vectors are the
      records read back in gene order. */
  lemma PrepareReadsSeeds(h: HypTable, meta: seq<MetaEntry>, noAutoAnchor: bool, records: seq<map<string, real>>)
    requires ValidHyp(h) && ValidMeta(meta)
    requires Prepare(h, meta, noAutoAnchor, records).Ok?
    ensures var st := Prepare(h, meta, noAutoAnchor, records).value;
            forall i, j :: 0 <= i < |records| && 0 <= j < |st.genes| ==>
              st.genes[j].name in records[i] && st.seeds[i][j] == records[i][st.genes[j].name]
  {
    var prepared := PrepareAnchors(h, meta, noAutoAnchor).value;
    var genes := Build(prepared.0.order, prepared.1).value;
    assert forall i :: 0 <= i < |records| ==> ExtractSeed(records[i], genes).Ok?;
  }

  /** Ordered bounds in the meta table give ordered gene bounds. */
  lemma PrepareOrdered(h: HypTable, meta: seq<MetaEntry>, noAutoAnchor: bool, records: seq<map<string, real>>)
    requires ValidHyp(h) && ValidMeta(meta)
    requires Prepare(h, meta, noAutoAnchor, records).Ok?
    requires MetaBoundsOrdered(meta)
    ensures OrderedBounds(Prepare(h, meta, noAutoAnchor, records).value.genes)
  {
    var prepared := PrepareAnchors(h, meta, noAutoAnchor).value;
    var genes := Build(prepared.0.order, prepared.1).value;
    PreparedGenesOrdered(h, meta, noAutoAnchor, prepared, genes);
  }

  /** What the run ends with: the driver's final variables, the slot of the
      best score of the last evaluated generation, the individual that
      earned it, and the list the program prints as the best solution,
      which is whatever that slot of `population` holds by then. */
  datatype Outcome = Outcome(final: State, bestIndex: nat, best: seq<real>, printed: seq<real>)

  /** The random draws a run needs, given what setup produces: one vector
      per random individual and, when generations run on a population, one
      record per generation. */
  predicate EvolveReady(c: GaConfig, gens: int, h: HypTable, meta: seq<MetaEntry>, noAutoAnchor: bool,
                        records: seq<map<string, real>>, randoms: seq<seq<real>>, draws: seq<GenDraws>)
    requires ValidHyp(h) && ValidMeta(meta)
  {
    var st := Prepare(h, meta, noAutoAnchor, records);
    st.Ok? ==>
      && FitsRandomDraws(randoms, RandomCount(c.popSize, |records|), st.value.genes)
      && (2 <= c.popSize && 1 <= gens ==> FitsRunDraws(draws, c, 0, gens, |st.value.genes|))
  }

  /** The driver's state before the first generation: the initial
      population (the reversed seeds, then the random individuals, each its
      own list), `hyp` as setup left it, no training run made yet, nothing
      evaluated and no snapshot written. */
  function Start(c: GaConfig, st: Setup, randoms: seq<seq<real>>): (s: State)
    requires 2 <= c.popSize
    requires FitsRandomDraws(randoms, RandomCount(c.popSize, |st.seeds|), st.genes)
    ensures |s.pop.ids| == (if c.popSize > |st.seeds| then c.popSize else |st.seeds|)
    ensures s.pop == InitialPopulation(c.popSize, st.seeds, randoms, st.genes).value
    ensures s.hyp == st.hyp
    ensures s.calls == 0 && s.evaluated == [] && s.scores == [] && s.saved == None
  {
    State(InitialPopulation(c.popSize, st.seeds, randoms, st.genes).value, st.hyp, 0, [], [], None)
  }

  /** A successful setup and the draws the run needs make the first
      generation ready to run. */
  lemma StartReady(c: GaConfig, gens: int, h: HypTable, meta: seq<MetaEntry>, noAutoAnchor: bool,
                   records: seq<map<string, real>>, randoms: seq<seq<real>>, draws: seq<GenDraws>)
    requires ValidHyp(h) && ValidMeta(meta)
    requires EvolveReady(c, gens, h, meta, noAutoAnchor, records, randoms, draws)
    requires Prepare(h, meta, noAutoAnchor, records).Ok?
    requires 1 <= gens && 2 <= c.popSize
    ensures var st := Prepare(h, meta, noAutoAnchor, records).value;
            RunReady(c, gens, 0, st.genes, Start(c, st, randoms), draws)
  {
    var st := Prepare(h, meta, noAutoAnchor, records).value;
    InitialPopulationWellFormed(c.popSize, st.seeds, randoms, st.genes);
  }

  /** The final report (train.py:1057-1058) after the last generation:
      the best slot is looked up in the replaced population, as written;
      the outcome also carries the individual that earned the best score. */
  function Conclude(last: State): (r: Result<Outcome>)
    requires forall i :: 0 <= i < |last.pop.ids| ==> last.pop.ids[i] in last.pop.heap
    requires |last.evaluated| == |last.scores| > 0
    ensures |last.scores| <= |last.pop.ids| ==> r.Ok?
    ensures r.Err? ==> r.error.IndexOutOfRange? && r.error.list == "population"
    ensures r.Ok? ==> var o := r.value;
      && o.final == last
      && (o.bestIndex, o.best) == BestEvaluated(last.evaluated, last.scores)
      && o.bestIndex < |last.pop.ids|
      && o.printed == last.pop.heap[last.pop.ids[o.bestIndex]]
  {
    var printed :- Report(last.pop, last.scores);
    var best := BestEvaluated(last.evaluated, last.scores);
    Ok(Outcome(last, best.0, best.1, printed.1))
  }

  /** The whole evolve branch (train.py:896-1059). Setup fails with the
      first `KeyError`; with no generation to run, the report reads
      `fitness_scores` before any assignment; with `pop_size <= 1`, the
      first generation reads `population` before any assignment; otherwise
      the generations run, and the report looks up the best slot in the
      replaced population, as written, which fails when that slot is past
      its end. Next to what is printed, the outcome carries the individual
      the report evidently means. */
  function Evolve(c: GaConfig, gens: int, h: HypTable, meta: seq<MetaEntry>, noAutoAnchor: bool,
                  records: seq<map<string, real>>, randoms: seq<seq<real>>, draws: seq<GenDraws>, train: Trainer)
    : (r: Result<Outcome>)
    requires ValidHyp(h) && ValidMeta(meta)
    requires EvolveReady(c, gens, h, meta, noAutoAnchor, records, randoms, draws)
    ensures Prepare(h, meta, noAutoAnchor, records).Err? ==> r == Err(Prepare(h, meta, noAutoAnchor, records).error)
    ensures Prepare(h, meta, noAutoAnchor, records).Ok? && gens <= 0 ==> r == Err(UnboundLocal("fitness_scores"))
    ensures Prepare(h, meta, noAutoAnchor, records).Ok? && gens >= 1 && c.popSize <= 1 ==> r == Err(UnboundLocal("population"))
    ensures r.Err? ==> || r.error.KeyError?
                       || r.error.UnboundLocal?
                       || r.error.SampleLargerThanPopulation?
                       || (r.error.IndexOutOfRange? && (r.error.list == "selected_indices" || r.error.list == "population"))
                       || r.error.EmptyRandintRange?
    ensures r.Ok? ==> gens >= 1 && 2 <= c.popSize
  {
    var st :- Prepare(h, meta, noAutoAnchor, records);
    if gens <= 0 then Err(UnboundLocal("fitness_scores"))
    else if c.popSize <= 1 then Err(UnboundLocal("population"))
    else
      StartReady(c, gens, h, meta, noAutoAnchor, records, randoms, draws);
      var s0 := Start(c, st, randoms);
      var last :- Run(c, gens, 0, st.genes, train, s0, draws);
      RunShape(c, gens, 0, st.genes, train, s0, draws);
      Conclude(last)
  }

  /** A successful run ends with exactly `pop_size` individuals, and the
      last evaluated generation, the one the report looks at, was the
      initial population when only one generation ran and `pop_size` bred
      individuals otherwise. */
  lemma EvolveShape(c: GaConfig, gens: int, h: HypTable, meta: seq<MetaEntry>, noAutoAnchor: bool,
                    records: seq<map<string, real>>, randoms: seq<seq<real>>, draws: seq<GenDraws>, train: Trainer)
    requires ValidHyp(h) && ValidMeta(meta)
    requires EvolveReady(c, gens, h, meta, noAutoAnchor, records, randoms, draws)
    requires Evolve(c, gens, h, meta, noAutoAnchor, records, randoms, draws, train).Ok?
    ensures var o := Evolve(c, gens, h, meta, noAutoAnchor, records, randoms, draws, train).value;
      && |o.final.pop.ids| == c.popSize
      && |o.final.scores| == (if gens == 1 && |records| > c.popSize then |records| else c.popSize)
  {
    var st := Prepare(h, meta, noAutoAnchor, records).value;
    StartReady(c, gens, h, meta, noAutoAnchor, records, randoms, draws);
    var s0 := Start(c, st, randoms);
    var run := Run(c, gens, 0, st.genes, train, s0, draws);
    assert run.Ok?;
    RunShape(c, gens, 0, st.genes, train, s0, draws);
    var o := Evolve(c, gens, h, meta, noAutoAnchor, records, randoms, draws, train).value;
    assert o.final == run.value;
  }

  /** A successful run's outcome is the final report of its last state:
      the best-scoring individual of the last evaluation and the list that
      slot of the replaced population holds. */
  lemma EvolveConcludes(c: GaConfig, gens: int, h: HypTable, meta: seq<MetaEntry>, noAutoAnchor: bool,
                        records: seq<map<string, real>>, randoms: seq<seq<real>>, draws: seq<GenDraws>, train: Trainer)
    requires ValidHyp(h) && ValidMeta(meta)
    requires EvolveReady(c, gens, h, meta, noAutoAnchor, records, randoms, draws)
    requires Evolve(c, gens, h, meta, noAutoAnchor, records, randoms, draws, train).Ok?
    ensures var o := Evolve(c, gens, h, meta, noAutoAnchor, records, randoms, draws, train).value;
      && (forall i :: 0 <= i < |o.final.pop.ids| ==> o.final.pop.ids[i] in o.final.pop.heap)
      && |o.final.evaluated| == |o.final.scores| > 0
      && Conclude(o.final) == Ok(o)
  {
    var st := Prepare(h, meta, noAutoAnchor, records).value;
    StartReady(c, gens, h, meta, noAutoAnchor, records, randoms, draws);
    var s0 := Start(c, st, randoms);
    var run := Run(c, gens, 0, st.genes, train, s0, draws);
    assert run.Ok?;
    RunShape(c, gens, 0, st.genes, train, s0, draws);
    var o := Evolve(c, gens, h, meta, noAutoAnchor, records, randoms, draws, train).value;
    assert o.final == run.value;
    assert Conclude(run.value) == Ok(o);
  }

  /** A sane setting with at least two genes, at most `pop_size` seed
      records and at least one generation runs to the end once setup
      succeeds. */
  lemma EvolveSucceeds(c: GaConfig, gens: int, h: HypTable, meta: seq<MetaEntry>, noAutoAnchor: bool,
                       records: seq<map<string, real>>, randoms: seq<seq<real>>, draws: seq<GenDraws>, train: Trainer)
    requires ValidHyp(h) && ValidMeta(meta)
    requires EvolveReady(c, gens, h, meta, noAutoAnchor, records, randoms, draws)
    requires Sane(c) && gens >= 1 && |records| <= c.popSize
    requires Prepare(h, meta, noAutoAnchor, records).Ok?
    requires |Prepare(h, meta, noAutoAnchor, records).value.genes| >= 2
    ensures Evolve(c, gens, h, meta, noAutoAnchor, records, randoms, draws, train).Ok?
  {
    var st := Prepare(h, meta, noAutoAnchor, records).value;
    StartReady(c, gens, h, meta, noAutoAnchor, records, randoms, draws);
    var s0 := Start(c, st, randoms);
    RunSucceeds(c, gens, 0, st.genes, train, s0, draws);
    RunShape(c, gens, 0, st.genes, train, s0, draws);
    var last := Run(c, gens, 0, st.genes, train, s0, draws).value;
    assert Conclude(last).Ok?;
  }

  /** With ordered bounds, in-bounds seeds and unit draws, the final
      population and the reported individual are within the genes' bounds. */
  lemma EvolveInBounds(c: GaConfig, gens: int, h: HypTable, meta: seq<MetaEntry>, noAutoAnchor: bool,
                       records: seq<map<string, real>>, randoms: seq<seq<real>>, draws: seq<GenDraws>, train: Trainer)
    requires ValidHyp(h) && ValidMeta(meta)
    requires EvolveReady(c, gens, h, meta, noAutoAnchor, records, randoms, draws)
    requires Evolve(c, gens, h, meta, noAutoAnchor, records, randoms, draws, train).Ok?
    requires MetaBoundsOrdered(meta)
    requires var st := Prepare(h, meta, noAutoAnchor, records);
             st.Ok? ==> forall i :: 0 <= i < |st.value.seeds| ==> InBounds(st.value.seeds[i], st.value.genes)
    requires forall k, j :: 0 <= k < |randoms| && 0 <= j < |randoms[k]| ==> IsUnit(randoms[k][j])
    ensures var st := Prepare(h, meta, noAutoAnchor, records).value;
            var o := Evolve(c, gens, h, meta, noAutoAnchor, records, randoms, draws, train).value;
            HeapInBounds(o.final.pop, st.genes) && InBounds(o.best, st.genes)
  {
    var st := Prepare(h, meta, noAutoAnchor, records).value;
    PrepareOrdered(h, meta, noAutoAnchor, records);
    StartReady(c, gens, h, meta, noAutoAnchor, records, randoms, draws);
    InitialPopulationInBounds(c.popSize, st.seeds, randoms, st.genes);
    var s0 := Start(c, st, randoms);
    RunShape(c, gens, 0, st.genes, train, s0, draws);
    RunKeepsBounds(c, gens, 0, st.genes, train, s0, draws);
  }

  /** The report as written shows the list now in the best slot, not the
      one that earned the score: after a kept child's in-place mutation of
      slot 0 from 0.5 to 0.55, the report shows 0.55 although 0.5 scored
      0.9. */
  lemma ReportShowsMutatedList()
    ensures Report(Population([0, 1], map[0 := [0.55], 1 := [0.2]], 2), [0.9, 0.1]) == Ok((0, [0.55]))
    ensures BestEvaluated([[0.5], [0.2]], [0.9, 0.1]) == (0, [0.5])
  {
    assert FirstArgMax([0.9, 0.1]) == 0;
  }

  /** The report as written fails when the single generation evaluated
      more seeds than `pop_size` and the best of them sits past the end of
      the new population; the corrected report still names it. */
  lemma ReportPastNewPopulation()
    ensures Report(Population([0, 1], map[0 := [0.5], 1 := [0.2]], 2), [0.1, 0.2, 0.9]) == Err(IndexOutOfRange("population", 2, 2))
    ensures BestEvaluated([[0.5], [0.2], [0.7]], [0.1, 0.2, 0.9]) == (2, [0.7])
  {
    assert FirstArgMax([0.1, 0.2, 0.9]) == 2;
  }
}

=== FILE: genespace.dfy ===
/** The gene space: which hyperparameters the search evolves, in which order,
    and within which bounds (train.py:847-930).

    The search metadata is a table `name -> (mutable, lower, upper)`; the base
    hyperparameters are a dictionary read from YAML whose key order is
    significant, because individuals are vectors aligned to it. Every key
    whose metadata flag is false is deleted from both the metadata and a copy
    of the hyperparameters; the remaining hyperparameter keys are the genes,
    and each gene's bounds are looked up in the metadata. Both steps raise
    `KeyError` on an absent key instead of skipping it.
 */
module GeneSpace {
  import opened Errors

  datatype MetaEntry = MetaEntry(name: string, mutable: bool, lower: real, upper: real)

  datatype Gene = Gene(name: string, lower: real, upper: real)

  /** The hyperparameter dictionary: its keys in insertion order and their values. */
  datatype HypTable = HypTable(order: seq<string>, values: map<string, real>)

  predicate Distinct<T(==)>(s: seq<T>) {
    forall i, j :: 0 <= i < j < |s| ==> s[i] != s[j]
  }

  /** A Python dict: no key twice, and exactly the listed keys carry values. */
  predicate ValidHyp(h: HypTable) {
    && Distinct(h.order)
    && (forall k :: k in h.order ==> k in h.values)
    && (forall k :: k in h.values ==> k in h.order)
  }

  function MetaNames(meta: seq<MetaEntry>): (r: seq<string>)
    ensures |r| == |meta|
    ensures forall i :: 0 <= i < |meta| ==> r[i] == meta[i].name
  {
    seq(|meta|, i requires 0 <= i < |meta| => meta[i].name)
  }

  predicate ValidMeta(meta: seq<MetaEntry>) {
    Distinct(MetaNames(meta))
  }

  function GeneNames(genes: seq<Gene>): (r: seq<string>)
    ensures |r| == |genes|
    ensures forall i :: 0 <= i < |genes| ==> r[i] == genes[i].name
  {
    seq(|genes|, i requires 0 <= i < |genes| => genes[i].name)
  }

  /** Every gene's bounds are ordered; the source's table satisfies this. */
  predicate OrderedBounds(genes: seq<Gene>) {
    forall i :: 0 <= i < |genes| ==> genes[i].lower <= genes[i].upper
  }

  /** `a` lists some of the elements of `b`, in `b`'s order. */
  ghost predicate Subsequence<T>(a: seq<T>, b: seq<T>)
    decreases |b|
  {
    if |a| == 0 then true
    else if |b| == 0 then false
    else if a[0] == b[0] then Subsequence(a[1..], b[1..])
    else Subsequence(a, b[1..])
  }

  /** An element in front of `b` does not stop `a` being a subsequence. */
  lemma {:induction false} SubsequenceCons<T>(a: seq<T>, x: T, b: seq<T>)
    requires Subsequence(a, b)
    ensures Subsequence(a, [x] + b)
    decreases |a| + |b|, 1
  {
    assert ([x] + b)[1..] == b;
    if |a| > 0 && a[0] == x {
      SubsequenceTail(a, b);
    }
  }

  /** Dropping the first element of a subsequence leaves a subsequence. */
  lemma {:induction false} SubsequenceTail<T>(a: seq<T>, b: seq<T>)
    requires |a| > 0 && Subsequence(a, b)
    ensures Subsequence(a[1..], b)
    decreases |a| + |b|, 0
  {
    assert b == [b[0]] + b[1..];
    if a[0] == b[0] {
      SubsequenceCons(a[1..], b[0], b[1..]);
    } else {
      SubsequenceTail(a, b[1..]);
      SubsequenceCons(a[1..], b[0], b[1..]);
    }
  }

  /** The metadata entry for key `k` (`meta[k]`), if there is one. */
  function Find(meta: seq<MetaEntry>, k: string): (r: Option<MetaEntry>)
    ensures r.None? <==> k !in MetaNames(meta)
    ensures r.Some? ==> r.value in meta && r.value.name == k
  {
    if |meta| == 0 then None
    else if meta[0].name == k then Some(meta[0])
    else Find(meta[1..], k)
  }

  predicate IsPinned(meta: seq<MetaEntry>, k: string) {
    var e := Find(meta, k);
    e.Some? && !e.value.mutable
  }

  /** `del_`: the keys whose flag is false, in table order (train.py:918). */
  function PinnedNames(meta: seq<MetaEntry>): (r: seq<string>)
    ensures forall k :: k in r <==> exists i :: 0 <= i < |meta| && meta[i].name == k && !meta[i].mutable
    ensures Subsequence(r, MetaNames(meta))
  {
    if |meta| == 0 then []
    else
      var rest := PinnedNames(meta[1..]);
      assert MetaNames(meta) == [meta[0].name] + MetaNames(meta[1..]);
      if meta[0].mutable then
        SubsequenceCons(rest, meta[0].name, MetaNames(meta[1..]));
        rest
      else
        assert ([meta[0].name] + rest)[1..] == rest;
        [meta[0].name] + rest
  }

  /** On a table with distinct names, a name is listed in `del_` exactly when
      its entry is pinned. */
  lemma {:induction false} PinnedNamesExact(meta: seq<MetaEntry>, k: string)
    requires ValidMeta(meta)
    ensures k in PinnedNames(meta) <==> IsPinned(meta, k)
  {
    if |meta| > 0 {
      TailValid(meta);
      PinnedNamesExact(meta[1..], k);
    }
  }

  /** `k` is the first key of `keys`, in their order, that is not in
      `present`: the key a loop raising `KeyError` on the first absent key
      names. */
  predicate FirstAbsent(keys: seq<string>, present: set<string>, k: string) {
    exists i :: 0 <= i < |keys| && keys[i] == k && k !in present
                && forall j :: 0 <= j < i ==> keys[j] in present
  }

  /** The first key of `keys` that is not in `present`, if any. */
  function FirstMissing(keys: seq<string>, present: set<string>): (r: Option<string>)
    ensures r.None? <==> forall k :: k in keys ==> k in present
    ensures r.Some? ==> FirstAbsent(keys, present, r.value)
  {
    if |keys| == 0 then None
    else if keys[0] !in present then Some(keys[0])
    else
      var rest := FirstMissing(keys[1..], present);
      if rest.Some? then
        ghost var i :| 0 <= i < |keys| - 1 && keys[1..][i] == rest.value && rest.value !in present
                       && forall j :: 0 <= j < i ==> keys[1..][j] in present;
        assert keys[i + 1] == rest.value;
        rest
      else
        rest
  }

  /** `keys` with every element of `drop` removed, order kept. */
  function Without(keys: seq<string>, drop: set<string>): (r: seq<string>)
    ensures forall k :: k in r <==> k in keys && k !in drop
    ensures Subsequence(r, keys)
    ensures Distinct(keys) ==> Distinct(r)
  {
    if |keys| == 0 then []
    else if keys[0] in drop then
      var rest := Without(keys[1..], drop);
      assert Distinct(keys) ==> Distinct(keys[1..]);
      rest
    else
      var rest := Without(keys[1..], drop);
      assert Distinct(keys) ==> Distinct(keys[1..]);
      assert [keys[0]] + rest == [keys[0]] + rest;
      assert ([keys[0]] + rest)[1..] == rest;
      [keys[0]] + rest
  }

  /** Scanning the kept keys for the first absent one is scanning all keys
      for the first one that is neither absent-but-dropped nor present. */
  lemma {:induction false} FirstMissingWithout(keys: seq<string>, drop: set<string>, present: set<string>)
    ensures FirstMissing(Without(keys, drop), present) == FirstMissing(keys, present + drop)
  {
    if |keys| > 0 {
      FirstMissingWithout(keys[1..], drop, present);
      if keys[0] !in drop {
        assert ([keys[0]] + Without(keys[1..], drop))[1..] == Without(keys[1..], drop);
      }
    }
  }

  /** Appending a dropped key changes nothing that survives the drop. */
  lemma {:induction false} WithoutAppendDropped(keys: seq<string>, k: string, drop: set<string>)
    requires k in drop
    ensures Without(keys + [k], drop) == Without(keys, drop)
  {
    if |keys| == 0 {
      assert keys + [k] == [k];
      assert [k][1..] == [];
    } else {
      assert (keys + [k])[1..] == keys[1..] + [k];
      WithoutAppendDropped(keys[1..], k, drop);
    }
  }

  /** Dropping in two rounds is dropping the union once. */
  lemma {:induction false} WithoutTwice(keys: seq<string>, a: set<string>, b: set<string>)
    ensures Without(Without(keys, a), b) == Without(keys, a + b)
  {
    if |keys| > 0 {
      WithoutTwice(keys[1..], a, b);
      if keys[0] !in a {
        assert ([keys[0]] + Without(keys[1..], a))[1..] == Without(keys[1..], a);
      }
    }
  }

  /** Only which of the keys are dropped matters, not the rest of the set. */
  lemma {:induction false} WithoutSameDrop(keys: seq<string>, a: set<string>, b: set<string>)
    requires forall k :: k in keys ==> (k in a <==> k in b)
    ensures Without(keys, a) == Without(keys, b)
  {
    if |keys| > 0 {
      assert forall k :: k in keys[1..] ==> k in keys;
      WithoutSameDrop(keys[1..], a, b);
    }
  }

  function SetOf(s: seq<string>): (r: set<string>)
    ensures forall k :: k in r <==> k in s
  {
    set k | k in s
  }

  /** The gene for key `k`, its bounds read from the metadata. */
  function GeneFor(meta: seq<MetaEntry>, k: string): (g: Gene)
    requires k in MetaNames(meta)
    ensures Find(meta, k) == Some(MetaEntry(k, Find(meta, k).value.mutable, g.lower, g.upper))
    ensures g.name == k
  {
    var e := Find(meta, k).value;
    Gene(k, e.lower, e.upper)
  }

  /** Gene-space construction (train.py:917-930).

      Fails with the first pinned metadata key that the hyperparameters lack
      (`del hyp_GA[item]`), then with the first remaining hyperparameter key
      that has no metadata (`meta[k]`). Otherwise the genes are exactly the
      hyperparameter keys that are not pinned, in the dictionary's order,
      each with its metadata bounds and a true flag. */
  function Build(hyp: seq<string>, meta: seq<MetaEntry>): (r: Result<seq<Gene>>)
    requires Distinct(hyp) && ValidMeta(meta)
    ensures r.Ok? <==>
              && (forall k :: k in PinnedNames(meta) ==> k in hyp)
              && (forall k :: k in hyp && !IsPinned(meta, k) ==> k in MetaNames(meta))
    ensures r.Err? ==> r.error.KeyError?
    ensures r.Err? && (exists k :: k in PinnedNames(meta) && k !in hyp) ==>
              FirstAbsent(PinnedNames(meta), SetOf(hyp), r.error.key)
    ensures r.Err? && (forall k :: k in PinnedNames(meta) ==> k in hyp) ==>
              FirstAbsent(hyp, SetOf(MetaNames(meta)), r.error.key)
    ensures r.Ok? ==> GeneNames(r.value) == Without(hyp, SetOf(PinnedNames(meta)))
    ensures r.Ok? ==> forall k :: k in GeneNames(r.value) <==> k in hyp && !IsPinned(meta, k)
    ensures r.Ok? ==> Subsequence(GeneNames(r.value), hyp) && Distinct(GeneNames(r.value))
    ensures r.Ok? ==> forall i :: 0 <= i < |r.value| ==>
                        Find(meta, r.value[i].name) == Some(MetaEntry(r.value[i].name, true, r.value[i].lower, r.value[i].upper))
  {
    var pinned := PinnedNames(meta);
    var missingHyp := FirstMissing(pinned, SetOf(hyp));
    if missingHyp.Some? then Err(KeyError(missingHyp.value))
    else
      var keys := Without(hyp, SetOf(pinned));
      assert forall k :: k in keys <==> k in hyp && !IsPinned(meta, k) by {
        forall k
          ensures k in keys <==> k in hyp && !IsPinned(meta, k)
        {
          PinnedNamesExact(meta, k);
        }
      }
      var missingMeta := FirstMissing(keys, SetOf(MetaNames(meta)));
      FirstMissingWithout(hyp, SetOf(pinned), SetOf(MetaNames(meta)));
      assert SetOf(MetaNames(meta)) + SetOf(pinned) == SetOf(MetaNames(meta)) by {
        forall k | k in pinned
          ensures k in MetaNames(meta)
        {
          var i :| 0 <= i < |meta| && meta[i].name == k && !meta[i].mutable;
          assert MetaNames(meta)[i] == k;
        }
      }
      if missingMeta.Some? then Err(KeyError(missingMeta.value))
      else
        Ok(GenesFor(meta, keys))
  }

  /** One gene per key, in the keys' order, each with its metadata bounds;
      keys that are not pinned have a true flag. */
  function GenesFor(meta: seq<MetaEntry>, keys: seq<string>): (genes: seq<Gene>)
    requires ValidMeta(meta)
    requires forall k :: k in keys ==> k in MetaNames(meta) && !IsPinned(meta, k)
    ensures GeneNames(genes) == keys
    ensures forall i :: 0 <= i < |genes| ==>
              Find(meta, genes[i].name) == Some(MetaEntry(genes[i].name, true, genes[i].lower, genes[i].upper))
  {
    var genes := seq(|keys|, i requires 0 <= i < |keys| => GeneFor(meta, keys[i]));
    assert forall i :: 0 <= i < |genes| ==> !IsPinned(meta, keys[i]);
    genes
  }

  /** The default anchor count and the `--noautoanchor` deletion
      (train.py:896-901): a missing `anchors` key is added with value 3; with
      the flag set, `anchors` is then deleted from the hyperparameters and
      from the metadata, which raises `KeyError` if the metadata lacks it. */
  function PrepareAnchors(h: HypTable, meta: seq<MetaEntry>, noAutoAnchor: bool): (r: Result<(HypTable, seq<MetaEntry>)>)
    requires ValidHyp(h) && ValidMeta(meta)
    ensures r.Err? <==> noAutoAnchor && "anchors" !in MetaNames(meta)
    ensures r.Ok? ==> ValidHyp(r.value.0) && ValidMeta(r.value.1)
    ensures r.Ok? && !noAutoAnchor ==> r.value.1 == meta && "anchors" in r.value.0.order
    ensures r.Ok? && !noAutoAnchor ==> r.value.0.values["anchors"] == (if "anchors" in h.values then h.values["anchors"] else 3.0)
    ensures r.Ok? && noAutoAnchor ==> "anchors" !in r.value.0.order && "anchors" !in MetaNames(r.value.1)
    ensures r.Ok? && !noAutoAnchor ==> r.value.0.order == (if "anchors" in h.values then h.order else h.order + ["anchors"])
    ensures r.Ok? && noAutoAnchor ==> r.value.0.order == Without(h.order, {"anchors"})
    ensures r.Ok? ==> forall k :: k != "anchors" ==> (k in r.value.0.values <==> k in h.values)
    ensures r.Ok? ==> forall k :: k != "anchors" && k in h.values ==> r.value.0.values[k] == h.values[k]
    ensures r.Ok? ==> forall k :: k != "anchors" ==> Find(r.value.1, k) == Find(meta, k)
  {
    var withAnchors :=
      if "anchors" in h.values then h
      else HypTable(h.order + ["anchors"], h.values["anchors" := 3.0]);
    if !noAutoAnchor then Ok((withAnchors, meta))
    else if "anchors" !in MetaNames(meta) then Err(KeyError("anchors"))
    else
      var order := Without(withAnchors.order, {"anchors"});
      assert order == Without(h.order, {"anchors"}) by {
        if "anchors" !in h.values {
          WithoutAppendDropped(h.order, "anchors", {"anchors"});
        }
      }
      var values := map k | k in withAnchors.values && k != "anchors" :: withAnchors.values[k];
      var meta' := RemoveEntry(meta, "anchors");
      Ok((HypTable(order, values), meta'))
  }

  /** Preparing twice without `--noautoanchor` is preparing once: the
      anchors key is added at most once and nothing else moves. */
  lemma PrepareAnchorsIdempotent(h: HypTable, meta: seq<MetaEntry>)
    requires ValidHyp(h) && ValidMeta(meta)
    ensures var once := PrepareAnchors(h, meta, false).value.0;
            PrepareAnchors(once, meta, false) == Ok((once, meta))
  {
    var once := PrepareAnchors(h, meta, false).value.0;
    assert "anchors" in once.values;
  }

  /** Deleting an entry pins and unpins nothing else. */
  lemma PinnedAfterRemove(meta: seq<MetaEntry>, k: string)
    requires ValidMeta(meta)
    ensures forall n :: n != k ==> (n in PinnedNames(RemoveEntry(meta, k)) <==> n in PinnedNames(meta))
    ensures k !in PinnedNames(RemoveEntry(meta, k))
  {
    var meta' := RemoveEntry(meta, k);
    forall n
      ensures n in PinnedNames(meta') <==> n != k && n in PinnedNames(meta)
    {
      PinnedNamesExact(meta', n);
      PinnedNamesExact(meta, n);
    }
  }

  /** The table without the entry named `k` (`del meta[k]`). */
  function RemoveEntry(meta: seq<MetaEntry>, k: string): (r: seq<MetaEntry>)
    requires ValidMeta(meta)
    ensures ValidMeta(r)
    ensures k !in MetaNames(r)
    ensures forall n :: n != k ==> Find(r, n) == Find(meta, n)
  {
    if |meta| == 0 then []
    else
      TailValid(meta);
      var rest := RemoveEntry(meta[1..], k);
      if meta[0].name == k then rest
      else
        assert Find(rest, meta[0].name) == Find(meta[1..], meta[0].name);
        ConsValid(meta[0], rest);
        [meta[0]] + rest
  }

  /** The tail of a table with distinct names has distinct names, none of
      them the head's. */
  lemma TailValid(meta: seq<MetaEntry>)
    requires ValidMeta(meta) && |meta| > 0
    ensures ValidMeta(meta[1..])
    ensures meta[0].name !in MetaNames(meta[1..])
  {
    assert forall i :: 0 <= i < |meta| - 1 ==> MetaNames(meta[1..])[i] == MetaNames(meta)[i + 1];
  }

  /** Putting an entry with a new name in front of a table. */
  lemma ConsValid(e: MetaEntry, rest: seq<MetaEntry>)
    requires ValidMeta(rest) && e.name !in MetaNames(rest)
    ensures ValidMeta([e] + rest)
    ensures forall n :: Find([e] + rest, n) == if e.name == n then Some(e) else Find(rest, n)
  {
    var r := [e] + rest;
    assert r[1..] == rest;
    assert forall i :: 0 <= i < |rest| ==> MetaNames(r)[i + 1] == MetaNames(rest)[i];
  }
}

=== FILE: numeric.dfy ===
/** The Python numeric primitives the evolution driver relies on, with their
    Python meaning written out: `int()` on a float truncates toward zero,
    `min`/`max` of two numbers, and `random.uniform(a, b)`, which Python
    computes as `a + (b - a) * random()` from one unit draw in [0, 1).
    Floats are modelled as `real`; rounding and NaN are not modelled.
 */
module Numeric {

  /** A unit draw, the value of one call of `random.random()`. */
  predicate IsUnit(u: real) {
    0.0 <= u < 1.0
  }

  /** Python `int(x)` for a float `x`: the integer part, rounding toward zero. */
  function Trunc(x: real): (r: int)
    ensures 0.0 <= x ==> r as real <= x < r as real + 1.0
    ensures x < 0.0 ==> r as real - 1.0 < x <= r as real
  {
    if 0.0 <= x then x.Floor else -((-x).Floor)
  }

  /** `int()` never decreases when its argument grows. */
  lemma TruncMonotonic(x: real, y: real)
    requires x <= y
    ensures Trunc(x) <= Trunc(y)
  {
    if x < 0.0 <= y {
    } else if 0.0 <= x {
      assert x.Floor as real <= y;
    } else {
      assert (-y).Floor as real <= -x;
    }
  }

  function MaxInt(a: int, b: int): (r: int)
    ensures r >= a && r >= b
    ensures r == a || r == b
  {
    if b > a then b else a
  }

  function MinInt(a: int, b: int): (r: int)
    ensures r <= a && r <= b
    ensures r == a || r == b
  {
    if b < a then b else a
  }

  function MaxReal(a: real, b: real): (r: real)
    ensures r >= a && r >= b
    ensures r == a || r == b
  {
    if b > a then b else a
  }

  function MinReal(a: real, b: real): (r: real)
    ensures r <= a && r <= b
    ensures r == a || r == b
  {
    if b < a then b else a
  }

  /** `min(max(v, lo), hi)`: the clamp applied to a mutated gene. */
  function Clamp(v: real, lo: real, hi: real): (r: real)
    ensures lo <= hi ==> lo <= r <= hi
    ensures lo <= v <= hi ==> r == v
    ensures v > hi ==> r == hi
    ensures lo <= hi && v < lo ==> r == lo
  {
    MinReal(MaxReal(v, lo), hi)
  }

  /** Clamping into an interval that holds `x` never moves a value further
      from `x` than it already was. */
  lemma ClampNoFurther(v: real, x: real, lo: real, hi: real)
    requires lo <= x <= hi
    ensures -(if v < x then x - v else v - x) <= Clamp(v, lo, hi) - x
    ensures Clamp(v, lo, hi) - x <= (if v < x then x - v else v - x)
  {
  }

  /** `random.uniform(a, b)` given the unit draw `u` it consumes. */
  function Uniform(a: real, b: real, u: real): (r: real)
    ensures a <= b && IsUnit(u) ==> a <= r <= b
  {
    var r := a + (b - a) * u;
    if a <= b && IsUnit(u) then
      UniformBounds(a, b, u, r);
      r
    else
      r
  }

  lemma UniformBounds(a: real, b: real, u: real, r: real)
    requires a <= b && IsUnit(u)
    requires r == a + (b - a) * u
    ensures a <= r <= b
  {
    var d, w := b - a, 1.0 - u;
    MulNonNegative(d, u);
    MulNonNegative(d, w);
    assert d - d * u == d * w;
  }

  lemma MulNonNegative(x: real, y: real)
    requires 0.0 <= x && 0.0 <= y
    ensures 0.0 <= x * y
  {
  }
}

=== FILE: populations.dfy ===
/** Individuals and populations.

    An individual is a Python list of gene values aligned to the gene space.
    The driver keeps lists by reference: a child that is not produced by
    crossover IS its first parent's list (train.py:1042), so mutating it
    also rewrites the parent, and two slots of the next generation can hold
    one shared list. A population is therefore modelled as a sequence of
    object identities into a heap of gene vectors, with a counter for the
    next fresh identity.
 */
module Populations {
  import opened GeneSpace

  type Id = nat

  datatype Population = Population(ids: seq<Id>, heap: map<Id, seq<real>>, nextId: Id)

  /** Every gene value lies within its gene's bounds. */
  predicate InBounds(x: seq<real>, genes: seq<Gene>) {
    && |x| == |genes|
    && forall j :: 0 <= j < |x| ==> genes[j].lower <= x[j] <= genes[j].upper
  }

  /** Every slot names a live list, every list has `n` genes, and every
      identity in use lies below the fresh counter. */
  predicate WellFormed(p: Population, n: nat) {
    && (forall i :: 0 <= i < |p.ids| ==> p.ids[i] in p.heap)
    && (forall id :: id in p.heap ==> id < p.nextId && |p.heap[id]| == n)
  }

  /** Every list in the heap, reachable or not, is within bounds. */
  predicate HeapInBounds(p: Population, genes: seq<Gene>) {
    forall id :: id in p.heap ==> InBounds(p.heap[id], genes)
  }

  /** The gene vectors the population's slots currently denote. */
  function Members(p: Population): (r: seq<seq<real>>)
    requires forall i :: 0 <= i < |p.ids| ==> p.ids[i] in p.heap
    ensures |r| == |p.ids|
    ensures forall i :: 0 <= i < |r| ==> r[i] == p.heap[p.ids[i]]
  {
    seq(|p.ids|, i requires 0 <= i < |p.ids| => p.heap[p.ids[i]])
  }

  /** A population of separate lists, one per vector, as list displays and
      `generate_individual` produce them. */
  function FromVectors(xs: seq<seq<real>>): (p: Population)
    ensures forall i :: 0 <= i < |p.ids| ==> p.ids[i] in p.heap
    ensures Members(p) == xs
    ensures forall i, j :: 0 <= i < j < |p.ids| ==> p.ids[i] != p.ids[j]
    ensures forall id: Id :: id in p.heap <==> id < |xs|
    ensures forall id :: id in p.heap ==> p.heap[id] == xs[id]
    ensures p.nextId == |xs|
  {
    var ids := seq(|xs|, i requires 0 <= i < |xs| => i as Id);
    Population(ids, map i | 0 <= i < |xs| :: xs[i], |xs|)
  }

  /** Vectors of one length give a well-formed population. */
  lemma FromVectorsWellFormed(xs: seq<seq<real>>, n: nat)
    requires forall i :: 0 <= i < |xs| ==> |xs[i]| == n
    ensures WellFormed(FromVectors(xs), n)
  {
  }

  /** Vectors within bounds give a population whose every list is within
      bounds. */
  lemma FromVectorsInBounds(xs: seq<seq<real>>, genes: seq<Gene>)
    requires forall i :: 0 <= i < |xs| ==> InBounds(xs[i], genes)
    ensures HeapInBounds(FromVectors(xs), genes)
  {
  }
}

=== FILE: schedules.dfy ===
/** The generation-adaptive parameters of selection and variation: elite
    size, tournament size, crossover rate and mutation rate. Each is a pure
    function of the generation index `g` and the generation count `gens`;
    the loop `for generation in range(opt.evolve)` guarantees
    `0 <= g < gens`.
 */
module Schedules {
  import opened Numeric
  import opened Settings

  /** `g / gens` as Python's true division computes it, in [0, 1). */
  function Progress(g: int, gens: int): (p: real)
    requires 0 <= g < gens
    ensures 0.0 <= p < 1.0
  {
    g as real / gens as real
  }

  /** `span * (g / gens)`: the share of a span that the run has covered. */
  function Share(span: real, g: int, gens: int): (x: real)
    requires 0 <= g < gens
    ensures 0.0 <= span ==> 0.0 <= x <= span
    ensures 0.0 < span ==> x < span
  {
    var p := Progress(g, gens);
    var x := span * p;
    if 0.0 <= span then
      ScaledProgress(span, p, x);
      x
    else
      x
  }

  /** Scaling a non-negative span by a progress in [0, 1) keeps it within
      the span. */
  lemma ScaledProgress(span: real, p: real, x: real)
    requires 0.0 <= span && 0.0 <= p < 1.0
    requires x == span * p
    ensures 0.0 <= x <= span
    ensures 0.0 < span ==> x < span
  {
    MulNonNegative(span, p);
    MulNonNegative(span, 1.0 - p);
    assert span - span * p == span * (1.0 - p);
    if 0.0 < span {
      assert span * (1.0 - p) > 0.0;
    }
  }

  /** A later generation has covered at least as much of a non-negative
      span. */
  lemma ShareMonotonic(span: real, g1: int, g2: int, gens: int)
    requires 0.0 <= span
    requires 0 <= g1 <= g2 < gens
    ensures Share(span, g1, gens) <= Share(span, g2, gens)
  {
    ProgressMonotonic(g1, g2, gens);
    ScaledDifference(span, Progress(g1, gens), Progress(g2, gens), Share(span, g1, gens), Share(span, g2, gens));
  }

  /** The run's progress never goes back. */
  lemma ProgressMonotonic(g1: int, g2: int, gens: int)
    requires 0 <= g1 <= g2 < gens
    ensures Progress(g1, gens) <= Progress(g2, gens)
  {
    assert Progress(g2, gens) - Progress(g1, gens) == (g2 - g1) as real / gens as real;
  }

  lemma ScaledDifference(span: real, p1: real, p2: real, x1: real, x2: real)
    requires 0.0 <= span && p1 <= p2
    requires x1 == span * p1 && x2 == span * p2
    ensures x1 <= x2
  {
    MulNonNegative(span, p2 - p1);
    assert span * p2 - span * p1 == span * (p2 - p1);
  }

  /** Elite size at generation `g` (train.py:979-981): the minimum plus the
      truncated share of the min-max span that the run has covered. */
  function EliteSize(c: GaConfig, g: int, gens: int): (e: int)
    requires 0 <= g < gens
    ensures c.eliteMin <= c.eliteMax ==> c.eliteMin <= e <= c.eliteMax
    ensures c.eliteMin < c.eliteMax ==> e < c.eliteMax
  {
    c.eliteMin + Trunc(Share((c.eliteMax - c.eliteMin) as real, g, gens))
  }

  /** The elite size never shrinks as the run proceeds. */
  lemma EliteSizeNonDecreasing(c: GaConfig, g1: int, g2: int, gens: int)
    requires c.eliteMin <= c.eliteMax
    requires 0 <= g1 <= g2 < gens
    ensures EliteSize(c, g1, gens) <= EliteSize(c, g2, gens)
  {
    var span := (c.eliteMax - c.eliteMin) as real;
    ShareMonotonic(span, g1, g2, gens);
    TruncMonotonic(Share(span, g1, gens), Share(span, g2, gens));
  }

  /** With the source's constants the elite size runs from 2 to 4; the
      maximum of 5 is never reached. */
  lemma DefaultEliteSizes(g: int, gens: int)
    requires 0 <= g < gens
    ensures 2 <= EliteSize(Defaults, g, gens) <= 4
    ensures g == 0 ==> EliteSize(Defaults, g, gens) == 2
  {
  }

  /** Tournament size at generation `g` (train.py:1007-1011): the capped
      maximum minus ten steps per run, truncated, and never below
      `max(2, tournamentMin)`. */
  function TournamentSize(c: GaConfig, g: int, gens: int): (t: int)
    requires 0 <= g < gens
    ensures t >= MaxInt(2, c.tournamentMin)
    ensures t <= MaxInt(MaxInt(2, c.tournamentMin), MinInt(c.tournamentMax, c.popSize))
  {
    var cap := MinInt(c.tournamentMax, c.popSize);
    var shrink := g as real / (gens as real / 10.0);
    assert Trunc(cap as real - shrink) <= cap by {
      TruncMonotonic(cap as real - shrink, cap as real);
    }
    MaxInt(MaxInt(2, c.tournamentMin), Trunc(cap as real - shrink))
  }

  /** The tournament shrinks (or stays) as the run proceeds. */
  lemma TournamentSizeNonIncreasing(c: GaConfig, g1: int, g2: int, gens: int)
    requires 0 <= g1 <= g2 < gens
    ensures TournamentSize(c, g2, gens) <= TournamentSize(c, g1, gens)
  {
    var cap := MinInt(c.tournamentMax, c.popSize) as real;
    var d := gens as real / 10.0;
    assert g1 as real / d <= g2 as real / d by {
      assert g2 as real / d - g1 as real / d == (g2 - g1) as real / d;
    }
    TruncMonotonic(cap - g2 as real / d, cap - g1 as real / d);
  }

  /** With a sane setting a tournament never asks for more distinct indices
      than the population holds. */
  lemma TournamentFitsPopulation(c: GaConfig, g: int, gens: int)
    requires Sane(c)
    requires 0 <= g < gens
    ensures 2 <= TournamentSize(c, g, gens) <= c.popSize
  {
  }

  /** The rate schedule shared by crossover and mutation: the maximum minus
      the run's progress, clamped into [rMin, rMax]. */
  function AdaptiveRate(rMin: real, rMax: real, g: int, gens: int): (r: real)
    requires 0 <= g < gens
    ensures rMin <= rMax ==> rMin <= r <= rMax
    ensures rMax - 1.0 < r
    ensures rMin <= rMax - Progress(g, gens) ==> r == rMax - Progress(g, gens)
  {
    MaxReal(rMin, MinReal(rMax, rMax - Progress(g, gens)))
  }

  lemma AdaptiveRateNonIncreasing(rMin: real, rMax: real, g1: int, g2: int, gens: int)
    requires 0 <= g1 <= g2 < gens
    ensures AdaptiveRate(rMin, rMax, g2, gens) <= AdaptiveRate(rMin, rMax, g1, gens)
  {
    ProgressMonotonic(g1, g2, gens);
  }

  /** Crossover probability at generation `g` (train.py:1033-1036). */
  function CrossoverRate(c: GaConfig, g: int, gens: int): (r: real)
    requires 0 <= g < gens
    ensures c.crossoverRateMin <= c.crossoverRateMax ==> c.crossoverRateMin <= r <= c.crossoverRateMax
  {
    AdaptiveRate(c.crossoverRateMin, c.crossoverRateMax, g, gens)
  }

  /** Mutation probability per gene at generation `g` (train.py:1044-1047). */
  function MutationRate(c: GaConfig, g: int, gens: int): (r: real)
    requires 0 <= g < gens
    ensures c.mutationRateMin <= c.mutationRateMax ==> c.mutationRateMin <= r <= c.mutationRateMax
  {
    AdaptiveRate(c.mutationRateMin, c.mutationRateMax, g, gens)
  }

  /** Both rates decay: neither grows from one generation to a later one. */
  lemma RatesNonIncreasing(c: GaConfig, g1: int, g2: int, gens: int)
    requires 0 <= g1 <= g2 < gens
    ensures CrossoverRate(c, g2, gens) <= CrossoverRate(c, g1, gens)
    ensures MutationRate(c, g2, gens) <= MutationRate(c, g1, gens)
  {
    AdaptiveRateNonIncreasing(c.crossoverRateMin, c.crossoverRateMax, g1, g2, gens);
    AdaptiveRateNonIncreasing(c.mutationRateMin, c.mutationRateMax, g1, g2, gens);
  }

  /** The worked example: elite bounds 2..5 over ten generations give an
      elite of 3 at generation 5. */
  lemma EliteSizeExample()
    ensures EliteSize(GaConfig(50, 0.01, 0.5, 0.5, 1.0, 2, 5, 2, 10), 5, 10) == 3
  {
    assert Progress(5, 10) == 0.5;
    assert Share(3.0, 5, 10) == 1.5;
  }
}

=== FILE: seeding.dfy ===
/** The initial population (train.py:932-963, 1069-1097).

    Seed individuals come from YAML records, each a mapping from
    hyperparameter name to value: either the entries of one resume file or
    one record per file of a seed directory. Each record is read back by gene
    name. The seeds are then prepended one by one in front of
    `pop_size - len(seeds)` random individuals, so they end up in reverse
    order. When `pop_size <= 1` no branch assigns `population` at all.
 */
module Seeding {
  import opened Errors
  import opened Numeric
  import opened GeneSpace
  import opened Populations

  /** One seed record read back by gene name (train.py:942, 952): the value
      of every gene, in gene order; `KeyError` names the first gene the
      record lacks. */
  function ExtractSeed(record: map<string, real>, genes: seq<Gene>): (r: Result<seq<real>>)
    ensures r.Ok? <==> forall j :: 0 <= j < |genes| ==> genes[j].name in record
    ensures r.Ok? ==> |r.value| == |genes|
    ensures r.Ok? ==> forall j :: 0 <= j < |genes| ==> r.value[j] == record[genes[j].name]
    ensures r.Err? ==> r.error.KeyError? && FirstAbsent(GeneNames(genes), record.Keys, r.error.key)
  {
    var missing := FirstMissing(GeneNames(genes), record.Keys);
    if missing.Some? then Err(KeyError(missing.value))
    else Ok(seq(|genes|, j requires 0 <= j < |genes| => record[genes[j].name]))
  }

  /** All seed records, in the order they are read; the first record that
      lacks a gene aborts the whole run. */
  function ExtractSeeds(records: seq<map<string, real>>, genes: seq<Gene>): (r: Result<seq<seq<real>>>)
    ensures r.Ok? <==> forall i :: 0 <= i < |records| ==> ExtractSeed(records[i], genes).Ok?
    ensures r.Ok? ==> |r.value| == |records|
    ensures r.Ok? ==> forall i :: 0 <= i < |records| ==> r.value[i] == ExtractSeed(records[i], genes).value
    ensures r.Err? ==> r.error.KeyError?
  {
    if |records| == 0 then Ok([])
    else
      var first :- ExtractSeed(records[0], genes);
      var rest :- ExtractSeeds(records[1..], genes);
      assert forall i :: 1 <= i < |records| ==> records[i] == records[1..][i - 1];
      Ok([first] + rest)
  }

  /** The error that ends seed reading is the first failing record's: its
      first missing gene. */
  lemma {:induction false} ExtractSeedsFailsFirst(records: seq<map<string, real>>, genes: seq<Gene>)
    ensures var r := ExtractSeeds(records, genes);
            r.Err? ==> exists i :: 0 <= i < |records| && ExtractSeed(records[i], genes).Err?
                                   && r.error == ExtractSeed(records[i], genes).error
                                   && forall j :: 0 <= j < i ==> ExtractSeed(records[j], genes).Ok?
  {
    var r := ExtractSeeds(records, genes);
    if r.Err? && ExtractSeed(records[0], genes).Ok? {
      var tail := records[1..];
      ExtractSeedsFailsFirst(tail, genes);
      var i :| 0 <= i < |tail| && ExtractSeed(tail[i], genes).Err?
               && ExtractSeeds(tail, genes).error == ExtractSeed(tail[i], genes).error
               && forall j :: 0 <= j < i ==> ExtractSeed(tail[j], genes).Ok?;
      assert tail[i] == records[i + 1];
      assert forall j :: 1 <= j < i + 1 ==> records[j] == tail[j - 1];
    }
  }

  /** `generate_individual` (train.py:1093-1097): one `random.uniform(lower,
      upper)` per gene, given the unit draws it consumes. */
  function GenerateIndividual(genes: seq<Gene>, draws: seq<real>): (x: seq<real>)
    requires |draws| == |genes|
    ensures |x| == |genes|
    ensures OrderedBounds(genes) && (forall j :: 0 <= j < |draws| ==> IsUnit(draws[j])) ==> InBounds(x, genes)
  {
    seq(|genes|, j requires 0 <= j < |genes| => Uniform(genes[j].lower, genes[j].upper, draws[j]))
  }

  function Reverse<T>(s: seq<T>): (r: seq<T>)
    ensures |r| == |s|
  {
    if |s| == 0 then [] else Reverse(s[1..]) + [s[0]]
  }

  lemma {:induction false} ReverseIndex<T>(s: seq<T>, i: int)
    requires 0 <= i < |s|
    ensures Reverse(s)[|s| - 1 - i] == s[i]
  {
    if i > 0 {
      ReverseIndex(s[1..], i - 1);
    }
  }

  /** `for initial_value in initial_values: population = [initial_value] + population`. */
  function PrependEach<T>(seeds: seq<T>, acc: seq<T>): (r: seq<T>)
    ensures |r| == |seeds| + |acc|
    ensures multiset(r) == multiset(seeds) + multiset(acc)
  {
    if |seeds| == 0 then acc
    else
      assert seeds == [seeds[0]] + seeds[1..];
      PrependEach(seeds[1..], [seeds[0]] + acc)
  }

  /** Prepending the seeds one at a time leaves them reversed in front of
      what was there. */
  lemma {:induction false} PrependEachReverses<T>(seeds: seq<T>, acc: seq<T>)
    ensures PrependEach(seeds, acc) == Reverse(seeds) + acc
  {
    if |seeds| > 0 {
      PrependEachReverses(seeds[1..], [seeds[0]] + acc);
      assert Reverse(seeds[1..]) + ([seeds[0]] + acc) == (Reverse(seeds[1..]) + [seeds[0]]) + acc;
    }
  }

  /** Number of random individuals: `range(pop_size - len(initial_values))`,
      empty when the seeds fill the population. */
  function RandomCount(popSize: int, seedCount: nat): (r: nat)
    ensures r == 0 <==> popSize <= seedCount
    ensures seedCount + r == (if popSize > seedCount then popSize else seedCount)
  {
    if popSize > seedCount then popSize - seedCount else 0
  }

  /** Unit draws for the random individuals: one vector per individual,
      one draw per gene. */
  predicate FitsRandomDraws(draws: seq<seq<real>>, count: nat, genes: seq<Gene>) {
    && |draws| == count
    && forall k :: 0 <= k < |draws| ==> |draws[k]| == |genes|
  }

  /** The vectors of the initial population, in slot order: the reversed
      seeds, then one random individual per draw vector. */
  function InitialVectors(seeds: seq<seq<real>>, draws: seq<seq<real>>, genes: seq<Gene>): (all: seq<seq<real>>)
    requires forall k :: 0 <= k < |draws| ==> |draws[k]| == |genes|
    ensures |all| == |seeds| + |draws|
    ensures forall i :: 0 <= i < |seeds| ==> all[|seeds| - 1 - i] == seeds[i]
    ensures forall k :: 0 <= k < |draws| ==> all[|seeds| + k] == GenerateIndividual(genes, draws[k])
  {
    var randoms := seq(|draws|, k requires 0 <= k < |draws| => GenerateIndividual(genes, draws[k]));
    PrependEachReverses(seeds, randoms);
    assert forall i :: 0 <= i < |seeds| ==> PrependEach(seeds, randoms)[|seeds| - 1 - i] == seeds[i] by {
      forall i | 0 <= i < |seeds|
        ensures PrependEach(seeds, randoms)[|seeds| - 1 - i] == seeds[i]
      {
        ReverseIndex(seeds, i);
      }
    }
    PrependEach(seeds, randoms)
  }

  /** Every slot of the initial vectors is a seed or a random individual. */
  lemma InitialVectorsCovered(seeds: seq<seq<real>>, draws: seq<seq<real>>, genes: seq<Gene>, i: int)
    requires forall k :: 0 <= k < |draws| ==> |draws[k]| == |genes|
    requires 0 <= i < |seeds| + |draws|
    ensures i < |seeds| ==> InitialVectors(seeds, draws, genes)[i] == seeds[|seeds| - 1 - i]
    ensures |seeds| <= i ==> InitialVectors(seeds, draws, genes)[i] == GenerateIndividual(genes, draws[i - |seeds|])
  {
    if i < |seeds| {
      var j := |seeds| - 1 - i;
      assert |seeds| - 1 - j == i;
    } else {
      var k := i - |seeds|;
      assert |seeds| + k == i;
    }
  }

  /** Seeds of the genes' length give vectors of the genes' length. */
  lemma InitialVectorsShape(seeds: seq<seq<real>>, draws: seq<seq<real>>, genes: seq<Gene>)
    requires forall k :: 0 <= k < |draws| ==> |draws[k]| == |genes|
    requires forall i :: 0 <= i < |seeds| ==> |seeds[i]| == |genes|
    ensures var all := InitialVectors(seeds, draws, genes);
            forall i :: 0 <= i < |all| ==> |all[i]| == |genes|
  {
    forall i | 0 <= i < |seeds| + |draws| {
      InitialVectorsCovered(seeds, draws, genes, i);
    }
  }

  /** In-bounds seeds and unit draws give in-bounds vectors. */
  lemma InitialVectorsInBounds(seeds: seq<seq<real>>, draws: seq<seq<real>>, genes: seq<Gene>)
    requires forall k :: 0 <= k < |draws| ==> |draws[k]| == |genes|
    requires OrderedBounds(genes)
    requires forall i :: 0 <= i < |seeds| ==> InBounds(seeds[i], genes)
    requires forall k, j :: 0 <= k < |draws| && 0 <= j < |draws[k]| ==> IsUnit(draws[k][j])
    ensures var all := InitialVectors(seeds, draws, genes);
            forall i :: 0 <= i < |all| ==> InBounds(all[i], genes)
  {
    forall i | 0 <= i < |seeds| + |draws| {
      InitialVectorsCovered(seeds, draws, genes, i);
    }
  }

  /** The initial population (train.py:955-963). `None` when
      `pop_size <= 1`: neither branch binds `population`, and the first read
      of it raises. Otherwise the reversed seeds come first, then the random
      individuals, each its own list. */
  function InitialPopulation(popSize: int, seeds: seq<seq<real>>, draws: seq<seq<real>>, genes: seq<Gene>): (r: Option<Population>)
    requires FitsRandomDraws(draws, RandomCount(popSize, |seeds|), genes)
    ensures r.Some? <==> popSize > 1
    ensures r.Some? ==> forall i :: 0 <= i < |r.value.ids| ==> r.value.ids[i] in r.value.heap
    ensures r.Some? ==> |r.value.ids| == (if popSize > |seeds| then popSize else |seeds|)
    ensures r.Some? ==> forall i :: 0 <= i < |seeds| ==> Members(r.value)[|seeds| - 1 - i] == seeds[i]
    ensures r.Some? ==> forall k :: 0 <= k < |draws| ==> Members(r.value)[|seeds| + k] == GenerateIndividual(genes, draws[k])
    ensures r.Some? ==> forall i, j :: 0 <= i < j < |r.value.ids| ==> r.value.ids[i] != r.value.ids[j]
  {
    if popSize > 1 then
      var all := InitialVectors(seeds, draws, genes);
      Some(FromVectors(all))
    else
      None
  }

  /** Seeds of the genes' length give a well-formed initial population. */
  lemma InitialPopulationWellFormed(popSize: int, seeds: seq<seq<real>>, draws: seq<seq<real>>, genes: seq<Gene>)
    requires FitsRandomDraws(draws, RandomCount(popSize, |seeds|), genes)
    requires popSize > 1
    requires forall i :: 0 <= i < |seeds| ==> |seeds[i]| == |genes|
    ensures WellFormed(InitialPopulation(popSize, seeds, draws, genes).value, |genes|)
  {
    InitialVectorsShape(seeds, draws, genes);
    FromVectorsWellFormed(InitialVectors(seeds, draws, genes), |genes|);
  }

  /** In-bounds seeds, ordered bounds and unit draws give an initial
      population whose every list is within bounds. */
  lemma InitialPopulationInBounds(popSize: int, seeds: seq<seq<real>>, draws: seq<seq<real>>, genes: seq<Gene>)
    requires FitsRandomDraws(draws, RandomCount(popSize, |seeds|), genes)
    requires popSize > 1
    requires OrderedBounds(genes)
    requires forall i :: 0 <= i < |seeds| ==> InBounds(seeds[i], genes)
    requires forall k, j :: 0 <= k < |draws| && 0 <= j < |draws[k]| ==> IsUnit(draws[k][j])
    ensures HeapInBounds(InitialPopulation(popSize, seeds, draws, genes).value, genes)
  {
    InitialVectorsInBounds(seeds, draws, genes);
    FromVectorsInBounds(InitialVectors(seeds, draws, genes), genes);
  }
}

=== FILE: selection.dfy ===
/** Adaptive tournament selection with elitism (train.py:1003-1031).

    `pop_size - elite_size` tournaments each sample distinct indices below
    `pop_size` and keep the first index holding the sample's best score.
    Elites are every index below `pop_size` whose score occurs among the
    `elite_size` largest scores, so ties at the boundary are all included.
    Survivors followed by elites form the mating pool; parents are later
    drawn from its first `pop_size` slots only.
 */
module Selection {

  /** Python `max(xs)`: the largest element. */
  function MaxOf(xs: seq<real>): (m: real)
    requires |xs| > 0
    ensures m in xs
    ensures forall j :: 0 <= j < |xs| ==> xs[j] <= m
  {
    if |xs| == 1 then xs[0]
    else
      var m := MaxOf(xs[..|xs| - 1]);
      assert forall j :: 0 <= j < |xs| - 1 ==> xs[j] == xs[..|xs| - 1][j];
      if xs[|xs| - 1] > m then xs[|xs| - 1] else m
  }

  /** Python `xs.index(v)`: the first position holding `v`. */
  function IndexOf(xs: seq<real>, v: real): (k: nat)
    requires v in xs
    ensures k < |xs| && xs[k] == v
    ensures forall j :: 0 <= j < k ==> xs[j] != v
  {
    if xs[0] == v then 0 else 1 + IndexOf(xs[1..], v)
  }

  /** `xs.index(max(xs))`: the first position of a largest element. */
  function FirstArgMax(xs: seq<real>): (k: nat)
    requires |xs| > 0
    ensures k < |xs|
    ensures forall j :: 0 <= j < |xs| ==> xs[j] <= xs[k]
    ensures forall j :: 0 <= j < k ==> xs[j] < xs[k]
  {
    IndexOf(xs, MaxOf(xs))
  }

  /** A sample of `size` distinct indices below `popSize`, as
      `random.sample(range(pop_size), size)` returns it. */
  predicate IsSample(sample: seq<int>, size: int, popSize: int) {
    && |sample| == size
    && (forall i :: 0 <= i < |sample| ==> 0 <= sample[i] < popSize)
    && (forall i, j :: 0 <= i < j < |sample| ==> sample[i] != sample[j])
  }

  /** The sampled scores, `[fitness_scores[j] for j in tournament_indices]`. */
  function SampledScores(fitness: seq<real>, sample: seq<int>): (r: seq<real>)
    requires forall i :: 0 <= i < |sample| ==> 0 <= sample[i] < |fitness|
    ensures |r| == |sample|
    ensures forall i :: 0 <= i < |sample| ==> r[i] == fitness[sample[i]]
  {
    seq(|sample|, i requires 0 <= i < |sample| => fitness[sample[i]])
  }

  /** `w` stands at the first position of `sample` whose score no
      contender beats: the pick of
      `tournament_indices[tournament_fitness.index(max(tournament_fitness))]`. */
  predicate FirstBest(fitness: seq<real>, sample: seq<int>, w: int)
    requires forall i :: 0 <= i < |sample| ==> 0 <= sample[i] < |fitness|
  {
    exists p :: 0 <= p < |sample| && sample[p] == w
                && (forall q :: 0 <= q < |sample| ==> fitness[sample[q]] <= fitness[sample[p]])
                && (forall q :: 0 <= q < p ==> fitness[sample[q]] < fitness[sample[p]])
  }

  /** The tie-break leaves no choice: one sample has one first best. */
  lemma FirstBestUnique(fitness: seq<real>, sample: seq<int>, v: int, w: int)
    requires forall i :: 0 <= i < |sample| ==> 0 <= sample[i] < |fitness|
    requires FirstBest(fitness, sample, v) && FirstBest(fitness, sample, w)
    ensures v == w
  {
    var p :| 0 <= p < |sample| && sample[p] == v
             && (forall q :: 0 <= q < |sample| ==> fitness[sample[q]] <= fitness[sample[p]])
             && (forall q :: 0 <= q < p ==> fitness[sample[q]] < fitness[sample[p]]);
    var p' :| 0 <= p' < |sample| && sample[p'] == w
              && (forall q :: 0 <= q < |sample| ==> fitness[sample[q]] <= fitness[sample[p']])
              && (forall q :: 0 <= q < p' ==> fitness[sample[q]] < fitness[sample[p']]);
    assert p == p';
  }

  /** The winner of one tournament (train.py:1013-1019): the index at the
      first sample position holding the sample's highest score. */
  function TournamentWinner(fitness: seq<real>, sample: seq<int>): (w: int)
    requires |sample| > 0
    requires forall i :: 0 <= i < |sample| ==> 0 <= sample[i] < |fitness|
    ensures 0 <= w < |fitness|
    ensures FirstBest(fitness, sample, w)
    ensures forall q :: 0 <= q < |sample| ==> fitness[sample[q]] <= fitness[w]
  {
    var p := FirstArgMax(SampledScores(fitness, sample));
    sample[p]
  }

  /** `selected_indices` before the elites: one winner per tournament. */
  function Survivors(fitness: seq<real>, samples: seq<seq<int>>): (r: seq<int>)
    requires forall t :: 0 <= t < |samples| ==> |samples[t]| > 0
    requires forall t, i :: 0 <= t < |samples| && 0 <= i < |samples[t]| ==> 0 <= samples[t][i] < |fitness|
    ensures |r| == |samples|
    ensures forall t :: 0 <= t < |r| ==> r[t] in samples[t]
    ensures forall t, q :: 0 <= t < |r| && 0 <= q < |samples[t]| ==> fitness[samples[t][q]] <= fitness[r[t]]
    ensures forall t :: 0 <= t < |r| ==> FirstBest(fitness, samples[t], r[t])
  {
    seq(|samples|, t requires 0 <= t < |samples| => TournamentWinner(fitness, samples[t]))
  }

  predicate Sorted(s: seq<real>) {
    forall i, j :: 0 <= i < j < |s| ==> s[i] <= s[j]
  }

  function Insert(x: real, s: seq<real>): (r: seq<real>)
    requires Sorted(s)
    ensures Sorted(r)
    ensures multiset(r) == multiset(s) + multiset{x}
  {
    if |s| == 0 then [x]
    else if x <= s[0] then
      InsertFront(x, s);
      [x] + s
    else
      var rest := Insert(x, s[1..]);
      InsertBehind(x, s, rest);
      [s[0]] + rest
  }

  lemma InsertFront(x: real, s: seq<real>)
    requires Sorted(s) && |s| > 0 && x <= s[0]
    ensures Sorted([x] + s)
  {
  }

  /** Putting the head back in front of the tail with `x` inserted. */
  lemma InsertBehind(x: real, s: seq<real>, rest: seq<real>)
    requires Sorted(s) && |s| > 0 && s[0] < x
    requires Sorted(rest)
    requires multiset(rest) == multiset(s[1..]) + multiset{x}
    ensures Sorted([s[0]] + rest)
    ensures multiset([s[0]] + rest) == multiset(s) + multiset{x}
  {
    assert s == [s[0]] + s[1..];
    forall k | 0 <= k < |rest|
      ensures s[0] <= rest[k]
    {
      assert rest[k] in multiset(rest);
      if rest[k] != x {
        assert rest[k] in multiset(s[1..]);
      }
    }
  }

  /** Python `sorted(xs)` on scores: ascending, same multiset. */
  function SortScores(s: seq<real>): (r: seq<real>)
    ensures Sorted(r)
    ensures multiset(r) == multiset(s)
    ensures |r| == |s|
  {
    if |s| == 0 then []
    else
      assert s == [s[0]] + s[1..];
      Insert(s[0], SortScores(s[1..]))
  }

  /** Python's `s[-e:]` for an integer `e`: the last `e` elements when
      `0 < e <= len(s)`, everything when `e == 0` or `e >= len(s)`, and the
      elements from position `-e` on when `e < 0`. */
  function NegativeSlice(s: seq<real>, e: int): (r: seq<real>)
    ensures 0 < e <= |s| ==> |r| == e && forall k :: 0 <= k < e ==> r[k] == s[|s| - e + k]
    ensures e == 0 || |s| <= e ==> r == s
    ensures e < 0 ==> |r| == (if -e < |s| then |s| + e else 0)
    ensures e < 0 ==> forall k :: 0 <= k < |r| ==> r[k] == s[-e + k]
  {
    if e > 0 then (if e <= |s| then s[|s| - e..] else s)
    else if e == 0 then s
    else if -e <= |s| then s[-e..]
    else []
  }

  /** `sorted(fitness_scores)[-elite_size:]`: the scores that make an index elite. */
  function EliteScores(fitness: seq<real>, eliteSize: int): (r: seq<real>)
    ensures |r| <= |fitness|
  {
    NegativeSlice(SortScores(fitness), eliteSize)
  }

  /** Elite indices below `n` (train.py:1022-1024), in ascending order. */
  function EliteIndicesBelow(fitness: seq<real>, top: seq<real>, n: nat): (r: seq<int>)
    requires n <= |fitness|
    ensures forall k :: 0 <= k < |r| ==> 0 <= r[k] < n
    ensures forall k, l :: 0 <= k < l < |r| ==> r[k] < r[l]
    ensures forall i :: 0 <= i < n ==> (i in r <==> fitness[i] in top)
    ensures |r| <= n
  {
    if n == 0 then []
    else
      var rest := EliteIndicesBelow(fitness, top, n - 1);
      if fitness[n - 1] in top then rest + [n - 1] else rest
  }

  /** `elite_indices`: every index below `pop_size` whose score is among the
      `elite_size` largest of the generation's scores. */
  function EliteIndices(fitness: seq<real>, popSize: nat, eliteSize: int): (r: seq<int>)
    requires popSize <= |fitness|
    ensures forall k :: 0 <= k < |r| ==> 0 <= r[k] < popSize
    ensures forall k, l :: 0 <= k < l < |r| ==> r[k] < r[l]
    ensures forall i :: 0 <= i < popSize ==> (i in r <==> fitness[i] in EliteScores(fitness, eliteSize))
  {
    EliteIndicesBelow(fitness, EliteScores(fitness, eliteSize), popSize)
  }

  /** `selected_indices` after `extend`: survivors, then elites. */
  function MatingPool(fitness: seq<real>, popSize: nat, eliteSize: int, samples: seq<seq<int>>): (pool: seq<int>)
    requires popSize <= |fitness|
    requires forall t :: 0 <= t < |samples| ==> |samples[t]| > 0
    requires forall t, i :: 0 <= t < |samples| && 0 <= i < |samples[t]| ==> 0 <= samples[t][i] < popSize
    ensures forall k :: 0 <= k < |pool| ==> 0 <= pool[k] < popSize
    ensures |pool| == |samples| + |EliteIndices(fitness, popSize, eliteSize)|
    ensures pool[..|samples|] == Survivors(fitness, samples)
    ensures pool[|samples|..] == EliteIndices(fitness, popSize, eliteSize)
  {
    var s := Survivors(fitness, samples);
    var e := EliteIndices(fitness, popSize, eliteSize);
    assert (s + e)[..|s|] == s;
    assert (s + e)[|s|..] == e;
    s + e
  }

  /** Tournament slot `k` of the pool holds a contender of tournament `k`
      that no other contender beats. */
  lemma MatingPoolWinners(fitness: seq<real>, popSize: nat, eliteSize: int, samples: seq<seq<int>>)
    requires popSize <= |fitness|
    requires forall t :: 0 <= t < |samples| ==> |samples[t]| > 0
    requires forall t, i :: 0 <= t < |samples| && 0 <= i < |samples[t]| ==> 0 <= samples[t][i] < popSize
    ensures var pool := MatingPool(fitness, popSize, eliteSize, samples);
            forall k :: 0 <= k < |samples| ==> pool[k] in samples[k]
    ensures var pool := MatingPool(fitness, popSize, eliteSize, samples);
            forall k, q :: 0 <= k < |samples| && 0 <= q < |samples[k]| ==> fitness[samples[k][q]] <= fitness[pool[k]]
    ensures var pool := MatingPool(fitness, popSize, eliteSize, samples);
            forall k :: 0 <= k < |samples| ==> FirstBest(fitness, samples[k], pool[k])
  {
    var pool := MatingPool(fitness, popSize, eliteSize, samples);
    assert forall k :: 0 <= k < |samples| ==> pool[k] == pool[..|samples|][k];
  }

  /** Every individual whose score is among the `eliteSize` best is in
      the pool. */
  lemma MatingPoolElites(fitness: seq<real>, popSize: nat, eliteSize: int, samples: seq<seq<int>>, i: int)
    requires popSize <= |fitness|
    requires forall t :: 0 <= t < |samples| ==> |samples[t]| > 0
    requires forall t, i :: 0 <= t < |samples| && 0 <= i < |samples[t]| ==> 0 <= samples[t][i] < popSize
    requires 0 <= i < popSize && fitness[i] in EliteScores(fitness, eliteSize)
    ensures i in MatingPool(fitness, popSize, eliteSize, samples)
  {
    var pool := MatingPool(fitness, popSize, eliteSize, samples);
    var elites := EliteIndices(fitness, popSize, eliteSize);
    var j :| 0 <= j < |elites| && elites[j] == i;
    assert pool[|samples|..][j] == i;
  }

  // ---------------------------------------------------------------------
  // What the elite rule means: a threshold on the sorted scores.
  // ---------------------------------------------------------------------

  /** Number of elements of `xs` that are at least `t`. */
  function CountAtLeast(xs: seq<real>, t: real): (c: nat)
    ensures c <= |xs|
  {
    if |xs| == 0 then 0 else (if xs[0] >= t then 1 else 0) + CountAtLeast(xs[1..], t)
  }

  lemma {:induction false} CountAtLeastAppend(a: seq<real>, b: seq<real>, t: real)
    ensures CountAtLeast(a + b, t) == CountAtLeast(a, t) + CountAtLeast(b, t)
  {
    if |a| > 0 {
      var ab := a + b;
      assert ab[0] == a[0];
      assert ab[1..] == a[1..] + b;
      CountAtLeastAppend(a[1..], b, t);
      assert CountAtLeast(ab, t) == (if a[0] >= t then 1 else 0) + CountAtLeast(a[1..] + b, t);
    } else {
      assert a + b == b;
    }
  }

  lemma {:induction false} CountAtLeastAll(xs: seq<real>, t: real)
    requires forall k :: 0 <= k < |xs| ==> xs[k] >= t
    ensures CountAtLeast(xs, t) == |xs|
  {
    if |xs| > 0 {
      CountAtLeastAll(xs[1..], t);
    }
  }

  lemma CountAtLeastRemove(b: seq<real>, k: int, t: real)
    requires 0 <= k < |b|
    ensures CountAtLeast(b, t) == (if b[k] >= t then 1 else 0) + CountAtLeast(b[..k] + b[k + 1..], t)
  {
    assert b == b[..k] + ([b[k]] + b[k + 1..]);
    CountAtLeastAppend(b[..k], [b[k]] + b[k + 1..], t);
    CountAtLeastAppend([b[k]], b[k + 1..], t);
    CountAtLeastAppend(b[..k], b[k + 1..], t);
  }

  lemma MultisetRemoveAt(b: seq<real>, k: int)
    requires 0 <= k < |b|
    ensures multiset(b[..k] + b[k + 1..]) == multiset(b) - multiset{b[k]}
  {
    assert b == b[..k] + [b[k]] + b[k + 1..];
    assert multiset(b) == multiset(b[..k]) + multiset{b[k]} + multiset(b[k + 1..]);
  }

  /** The count depends only on the multiset of elements. */
  lemma {:induction false} CountAtLeastPermutation(a: seq<real>, b: seq<real>, t: real)
    requires multiset(a) == multiset(b)
    ensures CountAtLeast(a, t) == CountAtLeast(b, t)
    decreases |a|
  {
    if |a| == 0 {
      assert |b| == |multiset(b)| == 0;
    } else {
      var k := PositionOf(b, a[0]);
      PermutationTail(a, b, k);
      CountAtLeastPermutation(a[1..], b[..k] + b[k + 1..], t);
      CountAtLeastRemove(b, k, t);
    }
  }

  lemma PositionOf(b: seq<real>, x: real) returns (k: int)
    requires x in multiset(b)
    ensures 0 <= k < |b| && b[k] == x
  {
    assert x in b;
    k :| 0 <= k < |b| && b[k] == x;
  }

  /** Taking the first element off one of two permutations of each other,
      and the same value off the other, leaves permutations. */
  lemma PermutationTail(a: seq<real>, b: seq<real>, k: int)
    requires multiset(a) == multiset(b)
    requires |a| > 0 && 0 <= k < |b| && b[k] == a[0]
    ensures multiset(a[1..]) == multiset(b[..k] + b[k + 1..])
  {
    assert a == [a[0]] + a[1..];
    assert multiset(a) == multiset{a[0]} + multiset(a[1..]);
    MultisetRemoveAt(b, k);
  }

  /** For `1 <= eliteSize <= len(fitness)`, a score occurs among the
      `eliteSize` largest exactly when it is at least the `eliteSize`-th
      largest score. */
  lemma EliteScoreThreshold(fitness: seq<real>, eliteSize: int, x: real)
    requires 1 <= eliteSize <= |fitness|
    requires x in fitness
    ensures x in EliteScores(fitness, eliteSize) <==> x >= SortScores(fitness)[|fitness| - eliteSize]
  {
    var s := SortScores(fitness);
    var n := |fitness|;
    var top := EliteScores(fitness, eliteSize);
    assert top == s[n - eliteSize..];
    assert x in multiset(s);
    if x in top {
      InSuffixAtLeast(s, eliteSize, x);
    }
    if x >= s[n - eliteSize] {
      AtLeastInSuffix(s, eliteSize, x);
    }
  }

  /** In a sorted sequence every element of the last `e` is at least the
      first of them. */
  lemma InSuffixAtLeast(s: seq<real>, e: int, x: real)
    requires Sorted(s) && 1 <= e <= |s|
    requires x in s[|s| - e..]
    ensures x >= s[|s| - e]
  {
    var q :| 0 <= q < e && s[|s| - e..][q] == x;
    assert s[|s| - e + q] == x;
  }

  /** In a sorted sequence an element at least the first of the last `e`
      is among them. */
  lemma AtLeastInSuffix(s: seq<real>, e: int, x: real)
    requires Sorted(s) && 1 <= e <= |s|
    requires x in s && x >= s[|s| - e]
    ensures x in s[|s| - e..]
  {
    var p :| 0 <= p < |s| && s[p] == x;
    var top := s[|s| - e..];
    if p < |s| - e {
      assert x == s[|s| - e];
      assert top[0] == x;
    } else {
      assert top[p - (|s| - e)] == x;
    }
  }

  /** When every index below `n` qualifies, all `n` of them are elites. */
  lemma {:induction false} EliteIndicesBelowAll(fitness: seq<real>, top: seq<real>, n: nat)
    requires n <= |fitness|
    requires forall i :: 0 <= i < n ==> fitness[i] in top
    ensures |EliteIndicesBelow(fitness, top, n)| == n
  {
    if n > 0 {
      EliteIndicesBelowAll(fitness, top, n - 1);
    }
  }

  /** When the elite rule is the threshold `t`, the elites below `n` are as
      many as the scores before `n` that reach `t`. */
  lemma {:induction false} EliteIndicesBelowCount(fitness: seq<real>, top: seq<real>, n: nat, t: real)
    requires n <= |fitness|
    requires forall i :: 0 <= i < n ==> (fitness[i] in top <==> fitness[i] >= t)
    ensures |EliteIndicesBelow(fitness, top, n)| == CountAtLeast(fitness[..n], t)
  {
    if n > 0 {
      EliteIndicesBelowCount(fitness, top, n - 1, t);
      assert fitness[..n] == fitness[..n - 1] + [fitness[n - 1]];
      CountAtLeastAppend(fitness[..n - 1], [fitness[n - 1]], t);
    }
  }

  /** A slice of `0` or of at least the whole list makes every index elite. */
  lemma EliteAllWhenSliceCoversAll(fitness: seq<real>, popSize: nat, eliteSize: int)
    requires popSize <= |fitness|
    requires eliteSize == 0 || |fitness| <= eliteSize
    ensures |EliteIndices(fitness, popSize, eliteSize)| == popSize
    ensures forall i :: 0 <= i < popSize ==> i in EliteIndices(fitness, popSize, eliteSize)
  {
    assert EliteScores(fitness, eliteSize) == SortScores(fitness);
    assert forall i :: 0 <= i < popSize ==> fitness[i] in multiset(SortScores(fitness));
    EliteIndicesBelowAll(fitness, EliteScores(fitness, eliteSize), popSize);
  }

  /** Ties are included, so a full generation has at least `eliteSize`
      elites whenever `1 <= eliteSize <= pop_size`. */
  lemma EliteCountAtLeastEliteSize(fitness: seq<real>, eliteSize: int)
    requires 1 <= eliteSize <= |fitness|
    ensures |EliteIndices(fitness, |fitness|, eliteSize)| >= eliteSize
  {
    var n := |fitness|;
    var s := SortScores(fitness);
    var t := s[n - eliteSize];
    var top := EliteScores(fitness, eliteSize);
    EliteThresholdEverywhere(fitness, eliteSize);
    EliteIndicesBelowCount(fitness, top, n, t);
    assert fitness[..n] == fitness;
    CountAtLeastPermutation(fitness, s, t);
    SortedSuffixCount(s, eliteSize);
  }

  /** The threshold rule, for every score of the generation at once. */
  lemma EliteThresholdEverywhere(fitness: seq<real>, eliteSize: int)
    requires 1 <= eliteSize <= |fitness|
    ensures forall i :: 0 <= i < |fitness| ==>
              (fitness[i] in EliteScores(fitness, eliteSize) <==> fitness[i] >= SortScores(fitness)[|fitness| - eliteSize])
  {
    forall i | 0 <= i < |fitness|
      ensures fitness[i] in EliteScores(fitness, eliteSize) <==> fitness[i] >= SortScores(fitness)[|fitness| - eliteSize]
    {
      EliteScoreThreshold(fitness, eliteSize, fitness[i]);
    }
  }

  /** In an ascending list, at least the last `e` elements reach the
      `e`-th largest. */
  lemma SortedSuffixCount(s: seq<real>, e: int)
    requires Sorted(s)
    requires 1 <= e <= |s|
    ensures CountAtLeast(s, s[|s| - e]) >= e
  {
    var n := |s|;
    var t := s[n - e];
    assert s == s[..n - e] + s[n - e..];
    CountAtLeastAppend(s[..n - e], s[n - e..], t);
    CountAtLeastAll(s[n - e..], t);
  }

  /** The elites of a generation are exactly the indices whose score
      reaches the `eliteSize`-th largest score. */
  lemma EliteIndicesByThreshold(fitness: seq<real>, eliteSize: int, i: int)
    requires 1 <= eliteSize <= |fitness|
    requires 0 <= i < |fitness|
    ensures i in EliteIndices(fitness, |fitness|, eliteSize) <==> fitness[i] >= SortScores(fitness)[|fitness| - eliteSize]
  {
    EliteScoreThreshold(fitness, eliteSize, fitness[i]);
  }

  /** In a generation of exactly `pop_size` scores with one tournament per
      non-elite slot, the mating pool has at least `pop_size` entries, so
      every parent draw `randint(0, pop_size - 1)` indexes it. */
  lemma MatingPoolCoversDraws(fitness: seq<real>, eliteSize: int, samples: seq<seq<int>>)
    requires |samples| == (if |fitness| > eliteSize then |fitness| - eliteSize else 0)
    requires forall t :: 0 <= t < |samples| ==> |samples[t]| > 0
    requires forall t, i :: 0 <= t < |samples| && 0 <= i < |samples[t]| ==> 0 <= samples[t][i] < |fitness|
    ensures |MatingPool(fitness, |fitness|, eliteSize, samples)| >= |fitness|
  {
    if eliteSize == 0 || |fitness| <= eliteSize {
      EliteAllWhenSliceCoversAll(fitness, |fitness|, eliteSize);
    } else if 1 <= eliteSize {
      EliteCountAtLeastEliteSize(fitness, eliteSize);
    }
  }

  /** The slots parents are drawn from: the survivors followed by the first
      `eliteSize` elites; elites tied beyond those slots are never drawn. */
  lemma ParentSlots(fitness: seq<real>, eliteSize: int, samples: seq<seq<int>>)
    requires 1 <= eliteSize <= |fitness|
    requires |samples| == |fitness| - eliteSize
    requires forall t :: 0 <= t < |samples| ==> |samples[t]| > 0
    requires forall t, i :: 0 <= t < |samples| && 0 <= i < |samples[t]| ==> 0 <= samples[t][i] < |fitness|
    ensures |EliteIndices(fitness, |fitness|, eliteSize)| >= eliteSize
    ensures MatingPool(fitness, |fitness|, eliteSize, samples)[..|fitness|]
            == Survivors(fitness, samples) + EliteIndices(fitness, |fitness|, eliteSize)[..eliteSize]
  {
    EliteCountAtLeastEliteSize(fitness, eliteSize);
    var pool := MatingPool(fitness, |fitness|, eliteSize, samples);
    var s := Survivors(fitness, samples);
    var e := EliteIndices(fitness, |fitness|, eliteSize);
    assert pool == s + e;
    assert (s + e)[..|fitness|] == s + e[..eliteSize];
  }
}

=== FILE: settings.dfy ===
/** The genetic-algorithm constants of the evolution driver (train.py:886-894).
    They are literals in the source; the model takes them as a record so that
    the schedule properties are stated for every setting, and `Defaults`
    holds the values the source uses.
 */
module Settings {

  datatype GaConfig = GaConfig(
    popSize: int,
    mutationRateMin: real,
    mutationRateMax: real,
    crossoverRateMin: real,
    crossoverRateMax: real,
    eliteMin: int,
    eliteMax: int,
    tournamentMin: int,
    tournamentMax: int)

  const Defaults: GaConfig := GaConfig(50, 0.01, 0.5, 0.5, 1.0, 2, 5, 2, 10)

  /** The orderings the source's constants satisfy and the schedule bounds
      rely on. */
  predicate Sane(c: GaConfig) {
    && 2 <= c.popSize
    && c.mutationRateMin <= c.mutationRateMax
    && c.crossoverRateMin <= c.crossoverRateMax
    && 0 <= c.eliteMin <= c.eliteMax
    && c.tournamentMin <= c.popSize
  }
}

=== FILE: snapshot.dfy ===
/** The population snapshot written at the start of every generation after
    the first (train.py:969-976).

    Each individual becomes a small dictionary from gene name to value,
    stored under the label `gen{generation}number{i}`; the whole dictionary
    is dumped to `evolve_population.yaml`, replacing the previous
    generation's file. A later run resumed from that file reads every
    stored dictionary back by gene name (train.py:937-943), so the snapshot
    is the save half of a save/restore pair.
 */
module Snapshot {
  import opened Errors
  import opened GeneSpace
  import opened Seeding
  import opened Evaluation

  /** The character of a decimal digit. */
  function DigitChar(d: int): (c: char)
    requires 0 <= d < 10
    ensures '0' <= c <= '9'
  {
    "0123456789"[d]
  }

  /** The value of a decimal digit character. */
  function DigitValue(c: char): (d: int)
    requires '0' <= c <= '9'
  {
    c as int - '0' as int
  }

  /** Python `str(n)` for a non-negative integer: its decimal digits, most
      significant first, with no leading zero. */
  function DecimalString(n: nat): (s: string)
    ensures |s| >= 1
    ensures forall k :: 0 <= k < |s| ==> '0' <= s[k] <= '9'
    ensures n >= 10 ==> |s| >= 2
    ensures s[0] == '0' ==> n == 0
  {
    if n < 10 then [DigitChar(n)]
    else DecimalString(n / 10) + [DigitChar(n % 10)]
  }

  /** Reading a string of decimal digits as a number, as `int(s)` does. */
  function ParseDecimal(s: string): (n: nat)
    requires forall k :: 0 <= k < |s| ==> '0' <= s[k] <= '9'
  {
    if |s| == 0 then 0
    else ParseDecimal(s[..|s| - 1]) * 10 + DigitValue(s[|s| - 1])
  }

  /** The decimal form of a number reads back as that number. */
  lemma {:induction false} DecimalRoundTrip(n: nat)
    ensures ParseDecimal(DecimalString(n)) == n
  {
    var s := DecimalString(n);
    if n < 10 {
      assert s[..0] == [];
      assert DigitValue("0123456789"[n]) == n;
    } else {
      DecimalRoundTrip(n / 10);
      assert s[..|s| - 1] == DecimalString(n / 10);
      assert DigitValue("0123456789"[n % 10]) == n % 10;
    }
  }

  /** Distinct numbers have distinct decimal forms. */
  lemma DecimalInjective(a: nat, b: nat)
    requires DecimalString(a) == DecimalString(b)
    ensures a == b
  {
    DecimalRoundTrip(a);
    DecimalRoundTrip(b);
  }

  /** The slot number a key of generation `g`'s snapshot names: the digits
      after `gen{g}number`, or `None` for a key of another shape. */
  function LabelSlot(g: nat, key: string): Option<nat> {
    var prefix := "gen" + DecimalString(g) + "number";
    if |prefix| < |key| && key[..|prefix|] == prefix && AllDigits(key[|prefix|..])
    then Some(ParseDecimal(key[|prefix|..]))
    else None
  }

  /** Every character is a decimal digit. */
  predicate AllDigits(s: string)
    ensures AllDigits(s) ==> forall k :: 0 <= k < |s| ==> '0' <= s[k] <= '9'
  {
    |s| == 0 || ('0' <= s[0] <= '9' && AllDigits(s[1..]))
  }

  /** Decimal forms consist of digits. */
  lemma {:induction false} DigitsAreDigits(s: string)
    requires forall k :: 0 <= k < |s| ==> '0' <= s[k] <= '9'
    ensures AllDigits(s)
  {
    if |s| > 0 {
      DigitsAreDigits(s[1..]);
    }
  }

  /** The key `f"gen{str(generation)}number{str(i)}"` of individual `i`; it
      names slot `i` back. */
  function Label(g: nat, i: nat): (key: string)
    ensures LabelSlot(g, key) == Some(i)
  {
    var prefix := "gen" + DecimalString(g) + "number";
    var key := prefix + DecimalString(i);
    assert key[..|prefix|] == prefix;
    assert key[|prefix|..] == DecimalString(i);
    DigitsAreDigits(DecimalString(i));
    DecimalRoundTrip(i);
    key
  }

  /** Within one generation's snapshot no two individuals share a key. */
  lemma LabelInjective(g: nat, i: nat, j: nat)
    requires Label(g, i) == Label(g, j)
    ensures i == j
  {
    assert LabelSlot(g, Label(g, i)) == Some(i);
  }

  /** `little_dict`: one individual as gene name to value. */
  function Entry(x: seq<real>, genes: seq<Gene>): (e: map<string, real>)
    requires |x| == |genes|
    ensures Distinct(GeneNames(genes)) ==> forall k :: k in e <==> k in GeneNames(genes)
    ensures Distinct(GeneNames(genes)) ==> forall j :: 0 <= j < |genes| ==> e[genes[j].name] == x[j]
  {
    var e := Overlay(map[], genes, x);
    assert Distinct(GeneNames(genes)) ==>
             && (forall k :: k in e <==> k in GeneNames(genes))
             && (forall j :: 0 <= j < |genes| ==> e[genes[j].name] == x[j]) by {
      if Distinct(GeneNames(genes)) {
        OverlayContents(map[], genes, x);
      }
    }
    e
  }

  /** `save_dict` after the loop over the population's slots, the entries
      added in slot order. */
  function Save(g: nat, xs: seq<seq<real>>, genes: seq<Gene>): map<string, map<string, real>>
    requires forall i :: 0 <= i < |xs| ==> |xs[i]| == |genes|
    decreases |xs|
  {
    if |xs| == 0 then map[]
    else
      var n := |xs| - 1;
      Save(g, xs[..n], genes)[Label(g, n) := Entry(xs[n], genes)]
  }

  /** Adding slot `n`'s label to the labels of slots below `n`. */
  lemma LabelsStep<V>(g: nat, n: nat, prev: map<string, V>, v: V)
    requires forall k :: k in prev <==> exists i :: 0 <= i < n && k == Label(g, i)
    ensures var r := prev[Label(g, n) := v];
            forall k :: k in r <==> exists i :: 0 <= i < n + 1 && k == Label(g, i)
  {
    var r := prev[Label(g, n) := v];
    forall k
      ensures k in r <==> exists i :: 0 <= i < n + 1 && k == Label(g, i)
    {
      if k == Label(g, n) {
        assert 0 <= n < n + 1 && k == Label(g, n);
      } else if k in prev {
        var i :| 0 <= i < n && k == Label(g, i);
        assert 0 <= i < n + 1 && k == Label(g, i);
      }
    }
  }

  /** The snapshot's keys are exactly the labels of the population's slots. */
  lemma {:induction false} SaveKeys(g: nat, xs: seq<seq<real>>, genes: seq<Gene>)
    requires forall i :: 0 <= i < |xs| ==> |xs[i]| == |genes|
    ensures forall k :: k in Save(g, xs, genes) <==> exists i :: 0 <= i < |xs| && k == Label(g, i)
    decreases |xs|
  {
    if |xs| > 0 {
      var n := |xs| - 1;
      var prev := Save(g, xs[..n], genes);
      SaveKeys(g, xs[..n], genes);
      LabelsStep(g, n, prev, Entry(xs[n], genes));
    }
  }

  /** No slot's label is taken by an earlier slot. */
  lemma NewLabel(g: nat, xs: seq<seq<real>>, genes: seq<Gene>)
    requires forall i :: 0 <= i < |xs| ==> |xs[i]| == |genes|
    ensures Label(g, |xs|) !in Save(g, xs, genes)
  {
    SaveKeys(g, xs, genes);
  }

  /** One entry per slot: later slots never overwrite earlier ones. */
  lemma {:induction false} SaveSize(g: nat, xs: seq<seq<real>>, genes: seq<Gene>)
    requires forall i :: 0 <= i < |xs| ==> |xs[i]| == |genes|
    ensures |Save(g, xs, genes)| == |xs|
    decreases |xs|
  {
    if |xs| > 0 {
      var n := |xs| - 1;
      SaveSize(g, xs[..n], genes);
      NewLabel(g, xs[..n], genes);
    }
  }

  /** Slot `i`'s entry is that individual's dictionary. */
  lemma {:induction false} SaveValues(g: nat, xs: seq<seq<real>>, genes: seq<Gene>, i: int)
    requires forall k :: 0 <= k < |xs| ==> |xs[k]| == |genes|
    requires 0 <= i < |xs|
    ensures Label(g, i) in Save(g, xs, genes)
    ensures Save(g, xs, genes)[Label(g, i)] == Entry(xs[i], genes)
    decreases |xs|
  {
    var n := |xs| - 1;
    if i < n {
      SaveValues(g, xs[..n], genes, i);
      assert xs[..n][i] == xs[i];
      if Label(g, i) == Label(g, n) {
        LabelInjective(g, i, n);
      }
    }
  }

  /** Save then restore: reading the genes back by name from the entry of
      slot `i` gives exactly the individual in slot `i`. */
  lemma SaveRestore(g: nat, xs: seq<seq<real>>, genes: seq<Gene>, i: int)
    requires forall k :: 0 <= k < |xs| ==> |xs[k]| == |genes|
    requires Distinct(GeneNames(genes))
    requires 0 <= i < |xs|
    ensures Label(g, i) in Save(g, xs, genes)
    ensures ExtractSeed(Save(g, xs, genes)[Label(g, i)], genes) == Ok(xs[i])
  {
    SaveValues(g, xs, genes, i);
    OverlayReadBack(map[], genes, xs[i]);
  }
}

=== FILE: variation.dfy ===
/** Crossover and mutation, and the construction of the next generation
    (train.py:1026-1055).

    Each child draws two parent slots from the first `pop_size` entries of
    the mating pool. With probability `crossover_rate` it is a new list made
    by single-point crossover; otherwise it IS the first parent's list. Each
    gene is then, with probability `mutation_rate`, shifted by a draw from
    [-0.1, 0.1] and clamped to its bounds, in place. Because a no-crossover
    child is the parent's own list, that mutation rewrites the parent as
    well: later children of the same generation read the mutated values,
    and the next generation can hold one list in several slots.
 */
module Variation {
  import opened Errors
  import opened Numeric
  import opened GeneSpace
  import opened Populations

  /** The random draws one child consumes: two `randint(0, pop_size - 1)`
      parent slots, the crossover coin, the crossover cut
      `randint(1, n - 1)`, and per gene a mutation coin and the unit draw
      behind `uniform(-0.1, 0.1)`. */
  datatype ChildDraws = ChildDraws(
    parent1: int,
    parent2: int,
    crossCoin: real,
    cut: int,
    mutationCoins: seq<real>,
    offsets: seq<real>)

  /** The shape every child's draws have, whatever the population size:
      non-negative parent slots, a cut inside the vector whenever one can be
      drawn, and one coin and one offset draw per gene. */
  predicate WellShaped(d: ChildDraws, n: nat) {
    && 0 <= d.parent1
    && 0 <= d.parent2
    && (n >= 2 ==> 1 <= d.cut <= n - 1)
    && |d.mutationCoins| == n
    && |d.offsets| == n
  }

  /** The ranges Python's random functions guarantee for one child's draws. */
  predicate FitsChildDraws(d: ChildDraws, popSize: int, n: nat) {
    && WellShaped(d, n)
    && d.parent1 <= popSize - 1
    && d.parent2 <= popSize - 1
    && IsUnit(d.crossCoin)
    && (forall j :: 0 <= j < n ==> IsUnit(d.mutationCoins[j]) && IsUnit(d.offsets[j]))
  }

  /** Single-point crossover (train.py:1037-1040):
      `p1[:cut] + p2[cut:]` for a cut strictly inside the vector. */
  function Crossover(p1: seq<real>, p2: seq<real>, cut: int): (child: seq<real>)
    requires |p1| == |p2|
    requires 1 <= cut < |p1|
    ensures |child| == |p1|
    ensures forall j :: 0 <= j < cut ==> child[j] == p1[j]
    ensures forall j :: cut <= j < |child| ==> child[j] == p2[j]
  {
    p1[..cut] + p2[cut..]
  }

  /** A crossover child of two in-bounds parents is in bounds. */
  lemma CrossoverInBounds(p1: seq<real>, p2: seq<real>, cut: int, genes: seq<Gene>)
    requires InBounds(p1, genes) && InBounds(p2, genes)
    requires 1 <= cut < |p1|
    ensures InBounds(Crossover(p1, p2, cut), genes)
  {
  }

  /** The worked example: parents [0.1, 0.6] and [0.2, 0.9] cut at 1 give [0.1, 0.9]. */
  lemma CrossoverExample()
    ensures Crossover([0.1, 0.6], [0.2, 0.9], 1) == [0.1, 0.9]
  {
    assert [0.1, 0.6][..1] + [0.2, 0.9][1..] == [0.1, 0.9];
  }

  /** One gene of `child[j] += uniform(-0.1, 0.1); child[j] = min(max(child[j], lo), hi)`,
      applied when the coin falls below the rate. */
  function MutateGene(v: real, g: Gene, rate: real, coin: real, offset: real): (r: real)
    ensures coin >= rate ==> r == v
    ensures coin < rate && g.lower <= g.upper ==> g.lower <= r <= g.upper
    ensures IsUnit(offset) && g.lower <= v <= g.upper ==> -0.1 <= r - v <= 0.1
  {
    if coin < rate then
      var shifted := v + Uniform(-0.1, 0.1, offset);
      assert IsUnit(offset) && g.lower <= v <= g.upper ==> -0.1 <= Clamp(shifted, g.lower, g.upper) - v <= 0.1 by {
        if IsUnit(offset) && g.lower <= v <= g.upper {
          ClampNoFurther(shifted, v, g.lower, g.upper);
        }
      }
      Clamp(shifted, g.lower, g.upper)
    else v
  }

  /** Mutation of a whole child (train.py:1048-1052). Genes whose coin is
      not below the rate are left alone; the others end within their
      bounds and, when they start within them and the offset draw is a
      unit draw, at most 0.1 away from where they started. */
  function Mutate(x: seq<real>, genes: seq<Gene>, rate: real, coins: seq<real>, offsets: seq<real>): (r: seq<real>)
    requires |x| == |genes| == |coins| == |offsets|
    ensures |r| == |x|
    ensures forall j :: 0 <= j < |x| && coins[j] >= rate ==> r[j] == x[j]
    ensures forall j :: 0 <= j < |x| && coins[j] < rate && genes[j].lower <= genes[j].upper ==>
              genes[j].lower <= r[j] <= genes[j].upper
    ensures forall j :: 0 <= j < |x| && IsUnit(offsets[j]) && genes[j].lower <= x[j] <= genes[j].upper ==>
              -0.1 <= r[j] - x[j] <= 0.1
  {
    seq(|x|, j requires 0 <= j < |x| => MutateGene(x[j], genes[j], rate, coins[j], offsets[j]))
  }

  /** Mutation keeps an in-bounds vector in bounds, whatever the draws. */
  lemma MutateInBounds(x: seq<real>, genes: seq<Gene>, rate: real, coins: seq<real>, offsets: seq<real>)
    requires InBounds(x, genes) && OrderedBounds(genes)
    requires |coins| == |offsets| == |genes|
    ensures InBounds(Mutate(x, genes, rate, coins, offsets), genes)
  {
  }

  /** The worked example of clamping: a gene in [0.0, 0.1] at 0.08 whose
      coin falls below the rate and whose offset draw 0.75 gives
      `uniform(-0.1, 0.1) == 0.05` would reach 0.13, and lands on its
      upper bound instead. */
  lemma MutateGeneClampsExample()
    ensures MutateGene(0.08, Gene("g", 0.0, 0.1), 0.5, 0.2, 0.75) == 0.1
  {
  }

  /** A seed is never clamped, so a gene can start outside its bounds; the
      clamp then moves it further than the 0.1 step. Here a gene at 0.95 in
      [0.0, 0.5] with shift 0.05 lands on 0.5, a move of 0.45. */
  lemma MutateGeneOutOfBoundsExample()
    ensures MutateGene(0.95, Gene("g", 0.0, 0.5), 0.5, 0.2, 0.75) == 0.5
    ensures 0.95 - MutateGene(0.95, Gene("g", 0.0, 0.5), 0.5, 0.2, 0.75) > 0.1
  {
  }

  /** Whether a child's draws get through without an exception: both parent
      draws index the pool, and a crossover has a cut range to draw from. */
  predicate ChildSucceeds(d: ChildDraws, poolSize: int, crossRate: real, n: nat) {
    && d.parent1 < poolSize
    && d.parent2 < poolSize
    && (d.crossCoin < crossRate ==> n >= 2)
  }

  /** One child (train.py:1028-1053). Returns the child's identity and the
      heap after its mutation; the slots of the current population are not
      changed, but the heap entry behind them may be. */
  function BuildChild(pop: Population, pool: seq<int>, d: ChildDraws, crossRate: real, mutRate: real, genes: seq<Gene>)
    : (r: Result<(Id, Population)>)
    requires WellFormed(pop, |genes|)
    requires forall k :: 0 <= k < |pool| ==> 0 <= pool[k] < |pop.ids|
    requires WellShaped(d, |genes|)
    ensures r.Ok? <==> ChildSucceeds(d, |pool|, crossRate, |genes|)
    ensures r.Err? ==> (r.error.IndexOutOfRange? && r.error.list == "selected_indices") || r.error.EmptyRandintRange?
    ensures r.Ok? ==> var (id, next) := r.value;
      && next.ids == pop.ids
      && WellFormed(next, |genes|)
      && id in next.heap
      && (forall other :: other in pop.heap && other != id ==> other in next.heap && next.heap[other] == pop.heap[other])
    ensures r.Ok? && d.crossCoin >= crossRate ==> var (id, next) := r.value;
      && id == pop.ids[pool[d.parent1]]
      && next.nextId == pop.nextId
      && next.heap == pop.heap[id := Mutate(pop.heap[id], genes, mutRate, d.mutationCoins, d.offsets)]
    ensures r.Ok? && d.crossCoin < crossRate ==> var (id, next) := r.value;
      && id == pop.nextId && id !in pop.heap
      && next.nextId == pop.nextId + 1
      && next.heap == pop.heap[id := Mutate(Crossover(pop.heap[pop.ids[pool[d.parent1]]], pop.heap[pop.ids[pool[d.parent2]]], d.cut),
                                            genes, mutRate, d.mutationCoins, d.offsets)]
    ensures r.Ok? && HeapInBounds(pop, genes) && OrderedBounds(genes) ==> HeapInBounds(r.value.1, genes)
  {
    if d.parent1 >= |pool| then Err(IndexOutOfRange("selected_indices", d.parent1, |pool|))
    else if d.parent2 >= |pool| then Err(IndexOutOfRange("selected_indices", d.parent2, |pool|))
    else
      var id1 := pop.ids[pool[d.parent1]];
      var id2 := pop.ids[pool[d.parent2]];
      if d.crossCoin < crossRate then
        if |genes| < 2 then Err(EmptyRandintRange(|genes|))
        else
          var child := Crossover(pop.heap[id1], pop.heap[id2], d.cut);
          var mutated := Mutate(child, genes, mutRate, d.mutationCoins, d.offsets);
          assert HeapInBounds(pop, genes) && OrderedBounds(genes) ==> InBounds(mutated, genes) by {
            if HeapInBounds(pop, genes) && OrderedBounds(genes) {
              CrossoverInBounds(pop.heap[id1], pop.heap[id2], d.cut, genes);
              MutateInBounds(child, genes, mutRate, d.mutationCoins, d.offsets);
            }
          }
          Ok((pop.nextId, Population(pop.ids, pop.heap[pop.nextId := mutated], pop.nextId + 1)))
      else
        var mutated := Mutate(pop.heap[id1], genes, mutRate, d.mutationCoins, d.offsets);
        assert HeapInBounds(pop, genes) && OrderedBounds(genes) ==> InBounds(mutated, genes) by {
          if HeapInBounds(pop, genes) && OrderedBounds(genes) {
            MutateInBounds(pop.heap[id1], genes, mutRate, d.mutationCoins, d.offsets);
          }
        }
        Ok((id1, Population(pop.ids, pop.heap[id1 := mutated], pop.nextId)))
  }

  /** The children of one generation, built in order over one shared heap.
      Returns their identities and the heap afterwards. */
  function BuildChildren(pop: Population, pool: seq<int>, draws: seq<ChildDraws>, crossRate: real, mutRate: real, genes: seq<Gene>)
    : (r: Result<(seq<Id>, Population)>)
    requires WellFormed(pop, |genes|)
    requires forall k :: 0 <= k < |pool| ==> 0 <= pool[k] < |pop.ids|
    requires forall k :: 0 <= k < |draws| ==> WellShaped(draws[k], |genes|)
    ensures r.Err? ==> (r.error.IndexOutOfRange? && r.error.list == "selected_indices") || r.error.EmptyRandintRange?
    ensures r.Ok? ==> var (children, next) := r.value;
      && |children| == |draws|
      && next.ids == pop.ids
      && WellFormed(next, |genes|)
      && (forall id :: id in pop.heap ==> id in next.heap)
      && (forall k :: 0 <= k < |children| ==> children[k] in next.heap)
      && pop.nextId <= next.nextId
    decreases |draws|
  {
    if |draws| == 0 then Ok(([], pop))
    else
      var first :- BuildChild(pop, pool, draws[0], crossRate, mutRate, genes);
      var rest :- BuildChildren(first.1, pool, draws[1..], crossRate, mutRate, genes);
      assert forall k :: 1 <= k < |draws| ==> draws[k] == draws[1..][k - 1];
      Ok(([first.0] + rest.0, rest.1))
  }

  /** Building children is building the first, then the rest over the
      heap the first left. */
  lemma BuildChildrenCons(pop: Population, pool: seq<int>, draws: seq<ChildDraws>, crossRate: real, mutRate: real, genes: seq<Gene>,
                          id: Id, mid: Population, ids: seq<Id>, last: Population)
    requires WellFormed(pop, |genes|)
    requires forall k :: 0 <= k < |pool| ==> 0 <= pool[k] < |pop.ids|
    requires forall k :: 0 <= k < |draws| ==> WellShaped(draws[k], |genes|)
    requires |draws| > 0
    requires BuildChild(pop, pool, draws[0], crossRate, mutRate, genes) == Ok((id, mid))
    requires BuildChildren(mid, pool, draws[1..], crossRate, mutRate, genes) == Ok((ids, last))
    ensures BuildChildren(pop, pool, draws, crossRate, mutRate, genes) == Ok(([id] + ids, last))
  {
  }

  /** The children are all built exactly when every child's draws get
      through. */
  lemma {:induction false} BuildChildrenSucceeds(pop: Population, pool: seq<int>, draws: seq<ChildDraws>, crossRate: real, mutRate: real, genes: seq<Gene>)
    requires WellFormed(pop, |genes|)
    requires forall k :: 0 <= k < |pool| ==> 0 <= pool[k] < |pop.ids|
    requires forall k :: 0 <= k < |draws| ==> WellShaped(draws[k], |genes|)
    ensures BuildChildren(pop, pool, draws, crossRate, mutRate, genes).Ok?
            <==> forall k :: 0 <= k < |draws| ==> ChildSucceeds(draws[k], |pool|, crossRate, |genes|)
    decreases |draws|
  {
    if |draws| > 0 {
      assert forall k :: 1 <= k < |draws| ==> draws[k] == draws[1..][k - 1];
      var first := BuildChild(pop, pool, draws[0], crossRate, mutRate, genes);
      if first.Ok? {
        BuildChildrenSucceeds(first.value.1, pool, draws[1..], crossRate, mutRate, genes);
      }
    }
  }

  /** A successful breeding is its first child followed by the rest, built
      over the heap the first left. */
  lemma BuildChildrenUncons(pop: Population, pool: seq<int>, draws: seq<ChildDraws>, crossRate: real, mutRate: real, genes: seq<Gene>)
    returns (id: Id, mid: Population, ids: seq<Id>, last: Population)
    requires WellFormed(pop, |genes|)
    requires forall k :: 0 <= k < |pool| ==> 0 <= pool[k] < |pop.ids|
    requires forall k :: 0 <= k < |draws| ==> WellShaped(draws[k], |genes|)
    requires |draws| > 0
    requires BuildChildren(pop, pool, draws, crossRate, mutRate, genes).Ok?
    ensures BuildChild(pop, pool, draws[0], crossRate, mutRate, genes) == Ok((id, mid))
    ensures WellFormed(mid, |genes|) && mid.ids == pop.ids
    ensures forall k :: 0 <= k < |draws| - 1 ==> WellShaped(draws[1..][k], |genes|)
    ensures BuildChildren(mid, pool, draws[1..], crossRate, mutRate, genes) == Ok((ids, last))
    ensures BuildChildren(pop, pool, draws, crossRate, mutRate, genes).value == ([id] + ids, last)
  {
    var first := BuildChild(pop, pool, draws[0], crossRate, mutRate, genes).value;
    var rest := BuildChildren(first.1, pool, draws[1..], crossRate, mutRate, genes).value;
    id, mid, ids, last := first.0, first.1, rest.0, rest.1;
  }

  /** A child that skips crossover is its first parent's list itself. */
  lemma {:induction false} BuildChildrenKept(pop: Population, pool: seq<int>, draws: seq<ChildDraws>, crossRate: real, mutRate: real, genes: seq<Gene>)
    requires WellFormed(pop, |genes|)
    requires forall k :: 0 <= k < |pool| ==> 0 <= pool[k] < |pop.ids|
    requires forall k :: 0 <= k < |draws| ==> WellShaped(draws[k], |genes|)
    requires BuildChildren(pop, pool, draws, crossRate, mutRate, genes).Ok?
    ensures var children := BuildChildren(pop, pool, draws, crossRate, mutRate, genes).value.0;
      forall k :: 0 <= k < |draws| && draws[k].crossCoin >= crossRate ==>
        0 <= draws[k].parent1 < |pool| && children[k] == pop.ids[pool[draws[k].parent1]]
    decreases |draws|
  {
    if |draws| > 0 {
      var id, mid, ids, last := BuildChildrenUncons(pop, pool, draws, crossRate, mutRate, genes);
      BuildChildrenKept(mid, pool, draws[1..], crossRate, mutRate, genes);
      forall k | 1 <= k < |draws|
        ensures ([id] + ids)[k] == ids[k - 1] && draws[k] == draws[1..][k - 1]
      {
      }
    }
  }

  /** A crossover child is a list new to this generation, numbered from the
      population's next identity on. */
  lemma {:induction false} BuildChildrenFresh(pop: Population, pool: seq<int>, draws: seq<ChildDraws>, crossRate: real, mutRate: real, genes: seq<Gene>)
    requires WellFormed(pop, |genes|)
    requires forall k :: 0 <= k < |pool| ==> 0 <= pool[k] < |pop.ids|
    requires forall k :: 0 <= k < |draws| ==> WellShaped(draws[k], |genes|)
    requires BuildChildren(pop, pool, draws, crossRate, mutRate, genes).Ok?
    ensures var (children, next) := BuildChildren(pop, pool, draws, crossRate, mutRate, genes).value;
      forall k :: 0 <= k < |draws| && draws[k].crossCoin < crossRate ==>
        children[k] !in pop.heap && pop.nextId <= children[k] < next.nextId
    decreases |draws|
  {
    if |draws| > 0 {
      var id, mid, ids, last := BuildChildrenUncons(pop, pool, draws, crossRate, mutRate, genes);
      assert pop.nextId <= mid.nextId <= last.nextId;
      assert forall other :: other in pop.heap ==> other in mid.heap;
      BuildChildrenFresh(mid, pool, draws[1..], crossRate, mutRate, genes);
      forall k | 1 <= k < |draws|
        ensures ([id] + ids)[k] == ids[k - 1] && draws[k] == draws[1..][k - 1]
      {
      }
    }
  }

  /** Building children keeps every list of the heap within bounds. */
  lemma {:induction false} BuildChildrenInBounds(pop: Population, pool: seq<int>, draws: seq<ChildDraws>, crossRate: real, mutRate: real, genes: seq<Gene>)
    requires WellFormed(pop, |genes|)
    requires forall k :: 0 <= k < |pool| ==> 0 <= pool[k] < |pop.ids|
    requires forall k :: 0 <= k < |draws| ==> WellShaped(draws[k], |genes|)
    requires BuildChildren(pop, pool, draws, crossRate, mutRate, genes).Ok?
    requires HeapInBounds(pop, genes) && OrderedBounds(genes)
    ensures HeapInBounds(BuildChildren(pop, pool, draws, crossRate, mutRate, genes).value.1, genes)
    decreases |draws|
  {
    if |draws| > 0 {
      var first := BuildChild(pop, pool, draws[0], crossRate, mutRate, genes).value;
      assert forall k :: 1 <= k < |draws| ==> draws[k] == draws[1..][k - 1];
      BuildChildrenInBounds(first.1, pool, draws[1..], crossRate, mutRate, genes);
    }
  }

  /** `population = next_generation` (train.py:1026-1055): one child per
      draw record, in the new population's slot order. */
  function NextGeneration(pop: Population, pool: seq<int>, draws: seq<ChildDraws>, crossRate: real, mutRate: real, genes: seq<Gene>)
    : (r: Result<Population>)
    requires WellFormed(pop, |genes|)
    requires forall k :: 0 <= k < |pool| ==> 0 <= pool[k] < |pop.ids|
    requires forall k :: 0 <= k < |draws| ==> WellShaped(draws[k], |genes|)
    ensures r.Ok? <==> forall k :: 0 <= k < |draws| ==> ChildSucceeds(draws[k], |pool|, crossRate, |genes|)
    ensures r.Err? ==> (r.error.IndexOutOfRange? && r.error.list == "selected_indices") || r.error.EmptyRandintRange?
    ensures r.Ok? ==> |r.value.ids| == |draws| && WellFormed(r.value, |genes|)
    ensures r.Ok? && HeapInBounds(pop, genes) && OrderedBounds(genes) ==> HeapInBounds(r.value, genes)
    ensures r.Ok? ==> forall k :: 0 <= k < |draws| && draws[k].crossCoin >= crossRate ==>
              0 <= draws[k].parent1 < |pool| && r.value.ids[k] == pop.ids[pool[draws[k].parent1]]
    ensures r.Ok? ==> forall k :: 0 <= k < |draws| && draws[k].crossCoin < crossRate ==>
              r.value.ids[k] !in pop.heap && pop.nextId <= r.value.ids[k] < r.value.nextId
  {
    BuildChildrenSucceeds(pop, pool, draws, crossRate, mutRate, genes);
    var built :- BuildChildren(pop, pool, draws, crossRate, mutRate, genes);
    BuildChildrenKept(pop, pool, draws, crossRate, mutRate, genes);
    BuildChildrenFresh(pop, pool, draws, crossRate, mutRate, genes);
    assert HeapInBounds(pop, genes) && OrderedBounds(genes) ==> HeapInBounds(built.1, genes) by {
      if HeapInBounds(pop, genes) && OrderedBounds(genes) {
        BuildChildrenInBounds(pop, pool, draws, crossRate, mutRate, genes);
      }
    }
    Ok(Population(built.0, built.1.heap, built.1.nextId))
  }

  /** Aliasing: two children that both skip crossover from the same pool
      slot are the same list, and that list carries both mutations, the
      second applied on top of the first. */
  lemma KeptChildrenShareList(pop: Population, pool: seq<int>, d1: ChildDraws, d2: ChildDraws, crossRate: real, mutRate: real, genes: seq<Gene>)
    requires WellFormed(pop, |genes|)
    requires forall k :: 0 <= k < |pool| ==> 0 <= pool[k] < |pop.ids|
    requires WellShaped(d1, |genes|) && WellShaped(d2, |genes|)
    requires ChildSucceeds(d1, |pool|, crossRate, |genes|) && ChildSucceeds(d2, |pool|, crossRate, |genes|)
    requires d1.crossCoin >= crossRate && d2.crossCoin >= crossRate
    requires pool[d1.parent1] == pool[d2.parent1]
    ensures var r := BuildChildren(pop, pool, [d1, d2], crossRate, mutRate, genes);
            var id := pop.ids[pool[d1.parent1]];
            && r.Ok?
            && r.value.0 == [id, id]
            && r.value.1.heap[id] == Mutate(Mutate(pop.heap[id], genes, mutRate, d1.mutationCoins, d1.offsets),
                                            genes, mutRate, d2.mutationCoins, d2.offsets)
  {
    var id := pop.ids[pool[d1.parent1]];
    var b1 := BuildChild(pop, pool, d1, crossRate, mutRate, genes).value;
    var b2 := BuildChild(b1.1, pool, d2, crossRate, mutRate, genes).value;
    assert BuildChildren(b2.1, pool, [], crossRate, mutRate, genes) == Ok(([], b2.1));
    assert [d2][1..] == [];
    BuildChildrenCons(b1.1, pool, [d2], crossRate, mutRate, genes, b2.0, b2.1, [], b2.1);
    assert [b2.0] + [] == [b2.0];
    assert [d1, d2][1..] == [d2];
    BuildChildrenCons(pop, pool, [d1, d2], crossRate, mutRate, genes, b1.0, b1.1, [b2.0], b2.1);
  }

  /** Aliasing: a crossover child whose first parent is the slot an earlier
      child kept and mutated reads the mutated values, not the ones that were
      evaluated. */
  lemma CrossoverReadsMutatedParent(pop: Population, pool: seq<int>, d1: ChildDraws, d2: ChildDraws, crossRate: real, mutRate: real, genes: seq<Gene>)
    requires WellFormed(pop, |genes|)
    requires forall k :: 0 <= k < |pool| ==> 0 <= pool[k] < |pop.ids|
    requires WellShaped(d1, |genes|) && WellShaped(d2, |genes|)
    requires ChildSucceeds(d1, |pool|, crossRate, |genes|) && ChildSucceeds(d2, |pool|, crossRate, |genes|)
    requires d1.crossCoin >= crossRate && d2.crossCoin < crossRate
    requires pool[d1.parent1] == pool[d2.parent1]
    ensures var r := BuildChildren(pop, pool, [d1, d2], crossRate, mutRate, genes);
            var id := pop.ids[pool[d1.parent1]];
            var kept := Mutate(pop.heap[id], genes, mutRate, d1.mutationCoins, d1.offsets);
            var id2 := pop.ids[pool[d2.parent2]];
            var other := if id2 == id then kept else pop.heap[id2];
            && r.Ok?
            && r.value.0 == [id, pop.nextId]
            && r.value.1.heap[r.value.0[1]] == Mutate(Crossover(kept, other, d2.cut), genes, mutRate, d2.mutationCoins, d2.offsets)
  {
    var b1 := BuildChild(pop, pool, d1, crossRate, mutRate, genes).value;
    var b2 := BuildChild(b1.1, pool, d2, crossRate, mutRate, genes).value;
    assert BuildChildren(b2.1, pool, [], crossRate, mutRate, genes) == Ok(([], b2.1));
    assert [d2][1..] == [];
    BuildChildrenCons(b1.1, pool, [d2], crossRate, mutRate, genes, b2.0, b2.1, [], b2.1);
    assert [b2.0] + [] == [b2.0];
    assert [d1, d2][1..] == [d2];
    BuildChildrenCons(pop, pool, [d1, d2], crossRate, mutRate, genes, b1.0, b1.1, [b2.0], b2.1);
  }
}
